=== FILE: README.md ===
# Corundum manifest tooling: a Dafny model

This project models the text logic of three classes from the Corundum Ant tasks. Each part is proved against an independent statement of what it promises.

- **ManifestBundlesListEntry** is a lenient scanner and printer for the list-of-clauses syntax of OSGi manifest headers (OSGi Core, section 3.2.4 "Common Header Syntax").
  - `,` separates clauses.
  - `;` separates a clause's identifier from its attributes.
  - `"` opens a quoted span in which `;` and `,` are ordinary characters.
  - The scanner never fails.
  - Modules `ManifestList` (the operations), `ManifestListLemmas` (their properties) and `ManifestListExamples` (worked inputs).
- **BundleVersion** is a dotted version value of any number of `long` segments; the parsing constructor keeps at most three. It has a parsing constructor, `toString`, `hashCode`, `equals` and `compareTo`.
  - Modules `Versions` and `VersionTexts`.
- **The Export-Package rewrite** inside `SetExportPackageVersionTask.execute`. It stamps every exported package clause with `version="<Bundle-Version>"`, and it rejects a bundle that states a package version by hand.
  - Modules `ExportPackage` and `ExportPackageExamples`.

`JavaLang` models the Java library behaviour these classes rely on:
- `String.trim`, which strips chars up to U+0020.
- `String.split` with a one-char regex, which drops trailing empty strings.
- `String.startsWith`.
- `Long.parseLong` and `Long.toString`.
- 64-bit and 32-bit two's-complement wrap-around.

`Wrappers` holds `Option` and `Result`.

A Java exception becomes a `Failure` or `None`. A `null` argument becomes `None`. The scanner's cursor is an explicit position, and `readUntil`'s return value is kept exactly, including `-1` when nothing was read. The data are immutable: a clause is `Entry(bundle, attributes)` and a version is a `seq` of `long` values.

## Model

| member | source | states |
|---|---|---|
| ManifestList.ReadUntil | tasks/src/org/eclipse/corundum/ManifestBundlesListEntry.java:112-150 | readUntil returns -1 exactly when the cursor is already at the end of the input; otherwise the cursor moves forward by at least one char |
| ManifestListLemmas.ReadNormal | tasks/src/org/eclipse/corundum/ManifestBundlesListEntry.java:121-149 | a top-level read either stops on `;` or `,` (consumed, not copied, the text being exactly the input before it) or runs to the end of the input, copying the rest of the input and appending a closing `"` exactly when the input ends inside a quoted span (an odd number of `"`) with at least one char after its opening `"`; in both cases the copied text is readable token text |
| ManifestListLemmas.ReadQuoted | tasks/src/org/eclipse/corundum/ManifestBundlesListEntry.java:133-142 | the nested read after a `"` copies every char up to the next `"` literally (`;` and `,` included, no escapes) and consumes that quote; without a further `"` it copies the rest of the input |
| ManifestListLemmas.ReadUnterminated | tasks/src/org/eclipse/corundum/ManifestBundlesListEntry.java:133-149 | a quote left open after readable text consumes the rest of the input, `;` and `,` included, and still receives a closing `"`, unless the opening `"` was the last char |
| ManifestList.ParseEntryAt | tasks/src/org/eclipse/corundum/ManifestBundlesListEntry.java:78-110 | each call of the private parse consumes at least one char, so the public loop terminates, and any clause it returns has a non-empty trimmed identifier; the identifier it stores is String.trim of the text of its first read |
| ManifestListLemmas.ParseEntryEnds | tasks/src/org/eclipse/corundum/ManifestBundlesListEntry.java:78-110 | the private parse reads one whole clause: it leaves the cursor just after the `,` that ends it, or at the end of the input |
| ManifestList.ReadAttributes | tasks/src/org/eclipse/corundum/ManifestBundlesListEntry.java:93-98 | after a `;` the attribute loop yields at least one attribute, an empty one included, and never moves the cursor back |
| ManifestListLemmas.ReadAttributesEnds | tasks/src/org/eclipse/corundum/ManifestBundlesListEntry.java:93-98 | the attribute loop stops just after a `,` or at the end of the input, never on a `;` |
| ManifestList.ParseFrom | tasks/src/org/eclipse/corundum/ManifestBundlesListEntry.java:65-73 | the loop of the public parse keeps only clauses with a non-empty, trimmed identifier, and yields no more clauses than there are chars left, because each turn consumes at least one |
| ManifestList.Parse | tasks/src/org/eclipse/corundum/ManifestBundlesListEntry.java:59-76 | parsing "" yields no clauses; every clause returned has a non-empty, trimmed identifier |
| ManifestListLemmas.ReadAttributesOk | tasks/src/org/eclipse/corundum/ManifestBundlesListEntry.java:93-98 | the attribute loop yields attributes that read back as themselves; only the last of the input may end inside an open quote |
| ManifestListLemmas.ParseBlankClause | tasks/src/org/eclipse/corundum/ManifestBundlesListEntry.java:100-109 | a clause whose identifier trims to nothing is dropped together with its attributes and the parse continues after it |
| ManifestListLemmas.RereadClause | tasks/src/org/eclipse/corundum/ManifestBundlesListEntry.java:78-110 | the private parse reads a printed readable clause back as itself and leaves the cursor after its terminating `,` or at the end |
| ManifestListLemmas.RereadPaddedClause | tasks/src/org/eclipse/corundum/ManifestBundlesListEntry.java:78-110 | a readable clause printed with blanks before and after its identifier, as in ` b` after the `,` of `a, b`, is read by the private parse as the clause itself: the identifier comes back trimmed and the attributes verbatim |
| ManifestListLemmas.ParsePadded | tasks/src/org/eclipse/corundum/ManifestBundlesListEntry.java:59-110 | readable clauses printed with any blanks around their identifiers and joined by `,` parse back to exactly those clauses |
| ManifestListExamples.ParseCommaSpace | tasks/src/org/eclipse/corundum/ManifestBundlesListEntry.java:59-110 | two plain identifiers written with the usual `, ` separator parse as two clauses without the blank |
| ManifestListExamples.ParseCommaSpaceAB | tasks/src/org/eclipse/corundum/ManifestBundlesListEntry.java:78-110 | `a, b` parses to the clauses a and b, and the private parse from the blank after the `,` returns b with the cursor at the end |
| ManifestListLemmas.ParseUnterminated | tasks/src/org/eclipse/corundum/ManifestBundlesListEntry.java:137-140 | in a header of readable clauses whose last clause ends in `;t"q` with the quote never closed, every earlier clause and attribute comes back unchanged, and the last attribute runs to the end of the header, swallowing `,` and `;`; it gets a closing `"` appended when q is not empty, and none when the opening `"` is the header's last char |
| ManifestListLemmas.ParseSerialize | tasks/src/org/eclipse/corundum/ManifestBundlesListEntry.java:44-57 | toString of readable clauses, joined by `,`, parses back to exactly those clauses (identifier, attributes, order) |
| ManifestList.ToStringJoin | tasks/src/org/eclipse/corundum/ManifestBundlesListEntry.java:44-57 | toString is the identifier followed by each attribute after a `;`: the identifier and the attributes joined with `;`, with nothing before or after |
| ManifestList.SerializeJoin | tasks/src/org/eclipse/corundum/SetExportPackageVersionTask.java:129-134 | the header the Ant task writes is the clauses' toStrings joined with `,`, with no leading or trailing `,` |
| ManifestListLemmas.ParseFromOk | tasks/src/org/eclipse/corundum/ManifestBundlesListEntry.java:59-76 | every clause that parse returns is readable: printing it again reproduces a token sequence the scanner reads back |
| ManifestListLemmas.ParseStable | tasks/src/org/eclipse/corundum/ManifestBundlesListEntry.java:44-150 | re-parsing the `,`-join of the toStrings of parse(s) gives parse(s) back, for every input s |
| ManifestListExamples.ParseEmpty | tasks/src/org/eclipse/corundum/ManifestBundlesListEntry.java:62-65 | "" has no clauses |
| ManifestListExamples.ParseQuotedComma | tasks/src/org/eclipse/corundum/ManifestBundlesListEntry.java:121-143 | `foo;version="1.0,2";bar,baz` is foo with attributes `version="1.0,2"` and `bar`, then baz with none |
| ManifestListExamples.ParseDanglingSemicolon | tasks/src/org/eclipse/corundum/ManifestBundlesListEntry.java:93-98 | `foo;` is foo with one empty attribute |
| ManifestListExamples.ParseEmptyAttributeBeforeComma | tasks/src/org/eclipse/corundum/ManifestBundlesListEntry.java:93-98 | `foo;,bar` is foo with one empty attribute, then bar |
| ManifestListExamples.ParseEmptyClauses | tasks/src/org/eclipse/corundum/ManifestBundlesListEntry.java:100-109 | empty clauses around a plain identifier w are dropped: `,,w,` is exactly the clause w |
| ManifestListExamples.ParseCommasFoo | tasks/src/org/eclipse/corundum/ManifestBundlesListEntry.java:100-109 | `,,foo,` is exactly the clause foo |
| ManifestListExamples.ParseUnterminatedQuote | tasks/src/org/eclipse/corundum/ManifestBundlesListEntry.java:137-140 | `foo;a"b,c` is foo with the single attribute `a"b,c"` |
| ManifestListExamples.ParseQuoteAtEnd | tasks/src/org/eclipse/corundum/ManifestBundlesListEntry.java:137-140 | `foo;a"` is foo with the single attribute `a"`: no closing quote when nothing follows the opening one |
| Versions.Parse | tasks/src/org/eclipse/corundum/BundleVersion.java:32-49 | a null string gives 1.0.0; otherwise the constructor succeeds exactly when every kept component is a valid `long`, and the version then has exactly those values in order |
| Versions.Components | tasks/src/org/eclipse/corundum/BundleVersion.java:39-42 | at most three components of the trimmed, split string are kept |
| Versions.ParseSegments | tasks/src/org/eclipse/corundum/BundleVersion.java:45-48 | the conversion loop either converts every text, position by position, or fails with the first text Long.parseLong rejects |
| Versions.ParseSegmentsStops | tasks/src/org/eclipse/corundum/BundleVersion.java:45-48 | when the first k texts convert and text k does not, the constructor throws for text k |
| Versions.SegmentsDetermine | tasks/src/org/eclipse/corundum/BundleVersion.java:51-59 | the contract of length() and segment(i) (`Length`, `Segment`): two versions are equal exactly when length() agrees and segment(i) agrees at every position |
| Versions.ToString | tasks/src/org/eclipse/corundum/BundleVersion.java:61-73 | the loop that appends `.` only once the buffer is non-empty computes the segments' Long.toString texts joined by `.`, with no leading or trailing separator |
| Versions.ParsePrint | tasks/src/org/eclipse/corundum/BundleVersion.java:32-73 | parsing what toString prints gives back the first three segments; a version without segments prints as "", which the constructor rejects |
| Versions.PrintParse | tasks/src/org/eclipse/corundum/BundleVersion.java:32-73 | a canonical version text of one to three unsigned components in the `long` range is accepted, and toString reproduces it |
| Versions.HashCode | tasks/src/org/eclipse/corundum/BundleVersion.java:75-86 | hashCode is the mathematical sum of the segments reduced to a 32-bit `int` (`int += long` widens, wraps at 64 bits, narrows), so equal versions hash alike |
| Versions.Equals | tasks/src/org/eclipse/corundum/BundleVersion.java:88-117 | equals holds exactly when the lengths match and the segments agree pointwise |
| Versions.CompareToAsWritten | tasks/src/org/eclipse/corundum/BundleVersion.java:119-151 | compareTo as written returns -1, 0 or 1, and 0 exactly for equal versions |
| Versions.CompareTo | tasks/src/org/eclipse/corundum/BundleVersion.java:119-151 | the corrected compareTo returns -1, 0 or 1, and 0 exactly for equal versions |
| Versions.CompareAntisymmetric | tasks/src/org/eclipse/corundum/BundleVersion.java:119-151 | swapping the operands of the corrected comparison negates the result |
| Versions.CompareTransitive | tasks/src/org/eclipse/corundum/BundleVersion.java:119-151 | the corrected comparison is transitive |
| Versions.ComparePrefix | tasks/src/org/eclipse/corundum/BundleVersion.java:141-148 | a version is smaller than every proper extension of it, so 1.0 is below 1.0.0 |
| Versions.CompareToAgrees | tasks/src/org/eclipse/corundum/BundleVersion.java:126-139 | where no segment difference overflows, in particular for versions without negative segments, compareTo as written agrees with the corrected order |
| Versions.CompareToOverflowWitness | tasks/src/org/eclipse/corundum/BundleVersion.java:129 | Long.MAX_VALUE and -1 each compare below the other as written, because the `long` difference wraps |
| VersionTexts.ParseBlank | tasks/src/org/eclipse/corundum/BundleVersion.java:39-47 | blank text, "" included, is not defaulted: it splits to one empty component, which Long.parseLong rejects |
| VersionTexts.ParseSeparators | tasks/src/org/eclipse/corundum/BundleVersion.java:41-43 | text made only of `.`s splits into nothing and gives a version without segments |
| VersionTexts.ParseLeadingSeparator | tasks/src/org/eclipse/corundum/BundleVersion.java:41-47 | a `.` in front of a printed version with at least one segment yields an empty first component, and the constructor throws NumberFormatException for "" |
| VersionTexts.ParseEmptyComponent | tasks/src/org/eclipse/corundum/BundleVersion.java:41-47 | an empty inner component within the first three, as in `1..2`, makes the constructor throw |
| VersionTexts.ParseLeadingZero | tasks/src/org/eclipse/corundum/BundleVersion.java:47 | leading zeros are normalised: `0` followed by the text of n parses as n |
| VersionTexts.ParseTrailingSeparators | tasks/src/org/eclipse/corundum/BundleVersion.java:41 | trailing `.`s are dropped by split, so `1.2.` parses as `1.2` |
| VersionTexts.ParseQualified | tasks/src/org/eclipse/corundum/BundleVersion.java:39-48 | whatever follows the third component and its `.` is never parsed, blanks at its end included: `1.2.3.qualifier`, `1.2.3.` and `1.2.3.q ` are all 1.2.3 |
| JavaLang.TrimFactor | tasks/src/org/eclipse/corundum/BundleVersion.java:39 | String.trim returns a factor of the string with only chars up to U+0020 before and after it, and that factor neither starts nor ends with one |
| JavaLang.Trim | tasks/src/org/eclipse/corundum/BundleVersion.java:39 | String.trim neither starts nor ends with a char up to U+0020, and is never longer than its input |
| JavaLang.TrimPadded | tasks/src/org/eclipse/corundum/ManifestBundlesListEntry.java:100 | String.trim removes exactly the blank padding around a non-empty text that neither starts nor ends with a char up to U+0020 |
| JavaLang.Split | tasks/src/org/eclipse/corundum/BundleVersion.java:41 | split of a text without `.` is the text itself, so "" splits to [""] |
| JavaLang.SplitFree | tasks/src/org/eclipse/corundum/BundleVersion.java:41 | every piece split returns is free of `.` |
| JavaLang.SplitJoin | tasks/src/org/eclipse/corundum/BundleVersion.java:41 | split on `.` undoes a `.`-join of separator-free pieces whose last piece is non-empty |
| JavaLang.ParseLongToString | tasks/src/org/eclipse/corundum/BundleVersion.java:47 | Long.parseLong reads back every text Long.toString writes |
| JavaLang.ParseLong | tasks/src/org/eclipse/corundum/BundleVersion.java:47 | Long.parseLong rejects "" and yields a negative value only after a leading `-` |
| JavaLang.LongToString | tasks/src/org/eclipse/corundum/BundleVersion.java:69 | Long.toString (what StringBuilder.append(long) writes) is never empty, has no `.` and nothing for trim to remove, so printed segments split back apart |
| JavaLang.ToIntOfToLong | tasks/src/org/eclipse/corundum/BundleVersion.java:82 | narrowing a 64-bit wrapped sum to `int` equals narrowing the exact sum |
| ExportPackage.Rewrite | tasks/src/org/eclipse/corundum/SetExportPackageVersionTask.java:104-113 | no Export-Package header means nothing is rewritten; a header without a Bundle-Version fails |
| ExportPackage.NotManualVersion | tasks/src/org/eclipse/corundum/SetExportPackageVersionTask.java:119-125 | the manual-version test is exact and case-sensitive on untrimmed attributes, so ` version=` or `Version=` does not trip it |
| ExportPackage.Stamp | tasks/src/org/eclipse/corundum/SetExportPackageVersionTask.java:127 | the stamped clause keeps its identifier and its own attributes in order after the new first attribute `version="<Bundle-Version>"`, and so counts as stating a version by hand |
| ExportPackage.AppendClausesResult | tasks/src/org/eclipse/corundum/SetExportPackageVersionTask.java:117-135 | the contract of the loop (`AppendClauses`): it fails exactly when some clause has an attribute starting with `version=`, naming the first such clause; otherwise it appends the stamped clauses to the buffer, separated by `,` |
| ExportPackage.RewriteResult | tasks/src/org/eclipse/corundum/SetExportPackageVersionTask.java:115-135 | with both headers present, the rewrite succeeds exactly when no clause states a version by hand, and then writes the toStrings of the stamped clauses joined by `,`, with no leading or trailing comma |
| ExportPackage.RewriteReparses | tasks/src/org/eclipse/corundum/SetExportPackageVersionTask.java:127-134 | the written header parses back as the original clauses, same count and identifiers, each with `version="<Bundle-Version>"` (the text verbatim) as first attribute and its own attributes after it in order |
| ExportPackage.RewriteTwiceFails | tasks/src/org/eclipse/corundum/SetExportPackageVersionTask.java:119-127 | rewriting a rewritten, non-empty header fails on its first clause, so the Ant task cannot be applied twice to the same bundle |
| ExportPackageExamples.RewriteTwoPackages | tasks/src/org/eclipse/corundum/SetExportPackageVersionTask.java:115-135 | `a,b;x:=y` with Bundle-Version 1.0 becomes `a;version="1.0",b;version="1.0";x:=y` |

## Left out

- Manifest file I/O (`ManifestUtil.readManifestEntry` and `setManifestEntry`), the directory listing and `BundleInfo.isValidBundle`: these are file-system access and classes that are not part of this model. `Rewrite` takes the two header values as `Option` parameters and returns the new header value.
- `isExcluded` in SetExportPackageVersionTask: it relies on Java regular expressions (`String.matches`) and on a catch-all exception path.
- The missing-directory failure at the start of `execute`. It is file-system access.
- The `GenRepositoryLandingOp` and `GenRepositoryLandingTask` classes: they only delete and create files, copy resources and wire up Ant.
- The warning that BundleVersion prints for a null version string: console output only.
- The wrapping of `IOException` into Ant's `BuildException`: it is exception plumbing around I/O.
- The Ant task's `fail`: it is assumed to throw, as its use for aborting the bundle implies, so the rewrite becomes a `Failure`. Its message text is not modelled.
- `CopyOnWriteArrayList` and the aliasing of the attribute list that `attributes()` returns, which the Ant task mutates in place: the model uses an immutable `seq`, and the Ant task's in-place `add(0, …)` becomes a new clause.
- `BundleVersion(long...)` keeps a reference to the caller's array. The model copies the values, because aliasing cannot be expressed on immutable data.
- equals(Object) with an argument that is not a BundleVersion or is null: the model compares two versions only. The reference-identity short cuts in equals and compareTo are left out too, because they return what the segment comparison returns anyway.
- `Long.parseLong` also accepts non-ASCII Unicode decimal digits. The model accepts ASCII digits only.
- Java strings are sequences of UTF-16 code units, while a Dafny `char` is a Unicode scalar value, so lone surrogates cannot be represented. No surrogate is `;`, `,`, `"`, `.` or a char up to U+0020, so the scanner, `trim` and `split` treat every representable text as Java does.
- ExportPackage.RewriteReparses: requires quote-free package names and a quote-free Bundle-Version. An identifier that ends inside an unclosed quote would swallow the inserted attribute when the header is read again.
- ExportPackage.RewriteTwiceFails: has the same quote-free precondition as RewriteReparses, on which it relies.

## Findings

| source | as written | input that shows it | evidently intended | confidence | as-written member | corrected member |
|---|---|---|---|---|---|---|
| tasks/src/org/eclipse/corundum/BundleVersion.java:129 | compareTo takes the sign of `this.segments[i] - other.segments[i]` computed in `long`, which wraps around when the difference overflows | versions `9223372036854775807` and `-1`: `9223372036854775807 - (-1)` wraps to Long.MIN_VALUE and `-1 - 9223372036854775807` is Long.MIN_VALUE, so both differences are negative and each version compares below the other | segments compared by numeric order (Long.compare), which is antisymmetric and transitive | not executed | Versions.CompareToAsWritten, Versions.CompareToOverflowWitness | Versions.Compare, Versions.CompareTo |

=== FILE: bundle_version.dfy ===
/** BundleVersion: a bundle version as a sequence of `long` segments, parsed from
    "major.minor.micro[.qualifier]" text, printed back with '.' separators, hashed,
    compared for equality and ordered segment by segment. */
module Versions {
  import opened Wrappers
  import opened JavaLang

  /** The segments of a version, most significant first. Any number of segments is
      allowed; the parsing constructor produces at most three. */
  datatype BundleVersion = BundleVersion(segments: seq<Long>)

  const SEPARATOR: char := '.'

  /** The parsing constructor keeps at most this many segments; a qualifier is ignored. */
  const MAX_SEGMENTS: nat := 3

  /** The version a missing (null) version string stands for: 1.0.0. */
  const DEFAULT: BundleVersion := BundleVersion([1, 0, 0])

  /** Long.parseLong threw NumberFormatException on this segment text. */
  datatype VersionError = NumberFormat(segment: string)

  function Min(a: nat, b: nat): nat {
    if a < b then a else b
  }

  // ---------------------------------------------------------------------------
  // BundleVersion(String)

  /** The segment texts the parsing constructor converts: the pieces of the trimmed text
      between '.' separators, trailing empty pieces dropped, at most the first three. */
  function Components(version: string): (r: seq<string>)
    ensures |r| <= MAX_SEGMENTS
  {
    var parts := Split(Trim(version), SEPARATOR);
    parts[..Min(|parts|, MAX_SEGMENTS)]
  }

  /** `parts[i]` is the first text Long.parseLong rejects. */
  predicate FirstMalformed(parts: seq<string>, i: int) {
    && 0 <= i < |parts| && ParseLong(parts[i]).None?
    && forall j :: 0 <= j < i ==> ParseLong(parts[j]).Some?
  }

  /** The conversion loop of the parsing constructor: Long.parseLong on each text in order,
      stopping at the first that throws. */
  function ParseSegments(parts: seq<string>): (r: Result<seq<Long>, VersionError>)
    ensures r.Success? ==> |r.value| == |parts|
    ensures r.Success? ==> forall i :: 0 <= i < |parts| ==> ParseLong(parts[i]) == Some(r.value[i])
    ensures r.Failure? ==> exists i :: FirstMalformed(parts, i) && r.error == NumberFormat(parts[i])
    decreases |parts|
  {
    if parts == [] then Success([])
    else
      match ParseLong(parts[0])
      case None => assert FirstMalformed(parts, 0); Failure(NumberFormat(parts[0]))
      case Some(n) =>
        var rest := ParseSegments(parts[1..]);
        if rest.Failure? then
          var i :| FirstMalformed(parts[1..], i) && rest.error == NumberFormat(parts[1..][i]);
          assert FirstMalformed(parts, i + 1);
          Failure(rest.error)
        else
          ParseSegmentsShift(parts, n, rest.value);
          Success([n] + rest.value)
  }

  lemma ParseSegmentsShift(parts: seq<string>, n: Long, values: seq<Long>)
    requires parts != [] && ParseLong(parts[0]) == Some(n) && |values| == |parts| - 1
    requires forall i :: 0 <= i < |parts[1..]| ==> ParseLong(parts[1..][i]) == Some(values[i])
    ensures forall i :: 0 <= i < |parts| ==> ParseLong(parts[i]) == Some(([n] + values)[i])
  {
    forall i | 1 <= i < |parts| ensures ParseLong(parts[i]) == Some(([n] + values)[i]) {
      assert parts[i] == parts[1..][i - 1];
    }
  }

  /** The conversion loop fails on the first text Long.parseLong rejects, naming it. */
  lemma ParseSegmentsStops(parts: seq<string>, k: nat)
    requires k < |parts| && ParseLong(parts[k]).None?
    requires forall j :: 0 <= j < k ==> ParseLong(parts[j]).Some?
    ensures ParseSegments(parts) == Failure(NumberFormat(parts[k]))
  {
    var r := ParseSegments(parts);
    assert r.Failure?;
    var i :| FirstMalformed(parts, i) && r.error == NumberFormat(parts[i]);
    assert i == k;
  }

  /** BundleVersion(String): a missing string gives 1.0.0; otherwise every segment text of
      `Components` must be a `long`, and the version has exactly those values. */
  function Parse(version: Option<string>): (r: Result<BundleVersion, VersionError>)
    ensures version.None? ==> r == Success(DEFAULT)
    ensures version.Some? ==> var texts := Components(version.value);
      && (r.Success? <==> forall i :: 0 <= i < |texts| ==> ParseLong(texts[i]).Some?)
      && (r.Success? ==> (|r.value.segments| == |texts|
                          && forall i :: 0 <= i < |texts| ==> ParseLong(texts[i]) == Some(r.value.segments[i])))
  {
    match version
    case None => Success(DEFAULT)
    case Some(text) =>
      var segments :- ParseSegments(Components(text));
      Success(BundleVersion(segments))
  }

  // ---------------------------------------------------------------------------
  // length and segment

  /** length(); `SegmentsDetermine` states what length() and segment(i) together reveal. */
  function Length(v: BundleVersion): nat {
    |v.segments|
  }

  /** segment(position); a position outside the array throws (`None`). */
  function Segment(v: BundleVersion, position: int): Option<Long> {
    if 0 <= position < |v.segments| then Some(v.segments[position]) else None
  }

  /** A version is determined by its length and its segments. */
  lemma SegmentsDetermine(a: BundleVersion, b: BundleVersion)
    ensures a == b <==> Length(a) == Length(b) && forall i :: 0 <= i < Length(a) ==> Segment(a, i) == Segment(b, i)
  {
    if Length(a) == Length(b) && forall i :: 0 <= i < Length(a) ==> Segment(a, i) == Segment(b, i) {
      forall i | 0 <= i < Length(a)
        ensures a.segments[i] == b.segments[i]
      {
        assert Segment(a, i) == Segment(b, i);
      }
    }
  }

  // ---------------------------------------------------------------------------
  // toString

  /** Long.toString of each segment. */
  function Texts(segments: seq<Long>): (r: seq<string>)
    ensures |r| == |segments|
    ensures forall i :: 0 <= i < |r| ==> r[i] == LongToString(segments[i])
  {
    seq(|segments|, i requires 0 <= i < |segments| => LongToString(segments[i]))
  }

  /** The text toString produces: the segments' decimal forms joined with '.'. */
  function Print(v: BundleVersion): string {
    Join(Texts(v.segments), SEPARATOR)
  }

  /** The printed text of a version with segments is non-empty and has nothing to trim. */
  lemma PrintTrimmed(segments: seq<Long>)
    requires segments != []
    ensures Join(Texts(segments), SEPARATOR) != [] && Trimmed(Join(Texts(segments), SEPARATOR))
  {
    JoinTrimmed(Texts(segments), SEPARATOR);
  }

  /** Printing one more segment appends '.' and its text, except after no segment at all. */
  lemma PrintStep(segments: seq<Long>, i: nat)
    requires i < |segments|
    ensures var text := LongToString(segments[i]);
      Join(Texts(segments[..i + 1]), SEPARATOR)
      == if i == 0 then text else Join(Texts(segments[..i]), SEPARATOR) + [SEPARATOR] + text
    ensures Join(Texts(segments[..i + 1]), SEPARATOR) != []
  {
    var text := LongToString(segments[i]);
    assert Texts(segments[..i + 1]) == Texts(segments[..i]) + [text];
    if i > 0 {
      JoinSnoc(Texts(segments[..i]), text, SEPARATOR);
    }
    PrintTrimmed(segments[..i + 1]);
  }

  /** toString as a loop over the segments, appending '.' before every segment but the first
      (the buffer is non-empty exactly from the first segment on). */
  method ToString(v: BundleVersion) returns (s: string)
    ensures s == Print(v)
  {
    s := [];
    for i := 0 to |v.segments|
      invariant s == Join(Texts(v.segments[..i]), SEPARATOR)
      invariant s == [] <==> i == 0
    {
      PrintStep(v.segments, i);
      if |s| > 0 {
        s := s + [SEPARATOR];
      }
      s := s + LongToString(v.segments[i]);
    }
    assert v.segments[..|v.segments|] == v.segments;
  }

  // ---------------------------------------------------------------------------
  // Parsing what toString prints, and printing what the constructor parses

  /** Long.parseLong reads back every segment Long.toString printed. */
  lemma {:induction false} ParseSegmentsTexts(segments: seq<Long>)
    ensures ParseSegments(Texts(segments)) == Success(segments)
    decreases |segments|
  {
    if segments != [] {
      var texts := Texts(segments);
      ParseLongToString(segments[0]);
      assert texts[1..] == Texts(segments[1..]);
      ParseSegmentsTexts(segments[1..]);
      ParseSegmentsCons(texts);
      assert [segments[0]] + segments[1..] == segments;
    }
  }

  /** One turn of the conversion loop over a text that parses. */
  lemma ParseSegmentsCons(parts: seq<string>)
    requires parts != [] && ParseLong(parts[0]).Some? && ParseSegments(parts[1..]).Success?
    ensures ParseSegments(parts) == Success([ParseLong(parts[0]).value] + ParseSegments(parts[1..]).value)
  {
  }

  /** Parsing the printed form of a version gives back its first three segments; a version
      without segments prints as "", which Long.parseLong rejects. */
  lemma ParsePrint(v: BundleVersion)
    ensures Parse(Some(Print(v)))
         == if v.segments == [] then Failure(NumberFormat(""))
            else Success(BundleVersion(v.segments[..Min(|v.segments|, MAX_SEGMENTS)]))
  {
    if v.segments == [] {
      assert Components(Print(v)) == [""];
    } else {
      var k := Min(|v.segments|, MAX_SEGMENTS);
      assert Components(Print(v)) == Texts(v.segments[..k]) by {
        PrintComponents(v);
      }
      ParseSegmentsTexts(v.segments[..k]);
    }
  }

  /** The constructor splits printed segments back into their texts, keeping the first three. */
  lemma PrintComponents(v: BundleVersion)
    requires v.segments != []
    ensures Components(Print(v)) == Texts(v.segments[..Min(|v.segments|, MAX_SEGMENTS)])
  {
    var texts := Texts(v.segments);
    PrintTrimmed(v.segments);
    TextsPieces(v.segments);
    ComponentsJoin(texts);
    TextsPrefix(v.segments, Min(|v.segments|, MAX_SEGMENTS));
  }

  /** Segment texts are separator-free and the last is not empty. */
  lemma TextsPieces(segments: seq<Long>)
    ensures segments != [] ==> Texts(segments)[|segments| - 1] != []
    ensures forall i :: 0 <= i < |Texts(segments)| ==> SEPARATOR !in Texts(segments)[i]
  {
  }

  lemma TextsPrefix(segments: seq<Long>, k: nat)
    requires k <= |segments|
    ensures Texts(segments)[..k] == Texts(segments[..k])
  {
  }

  /** The constructor splits a trimmed join of separator-free pieces, the last non-empty,
      back into the pieces, keeping the first three. */
  lemma ComponentsJoin(pieces: seq<string>)
    requires |pieces| >= 1 && pieces[|pieces| - 1] != []
    requires forall i :: 0 <= i < |pieces| ==> SEPARATOR !in pieces[i]
    requires Trimmed(Join(pieces, SEPARATOR))
    ensures Components(Join(pieces, SEPARATOR)) == pieces[..Min(|pieces|, MAX_SEGMENTS)]
  {
    assert Trim(Join(pieces, SEPARATOR)) == Join(pieces, SEPARATOR) by {
      TrimTrimmed(Join(pieces, SEPARATOR));
    }
    assert Split(Join(pieces, SEPARATOR), SEPARATOR) == pieces by {
      SplitJoin(pieces, SEPARATOR);
    }
    assert Split(Trim(Join(pieces, SEPARATOR)), SEPARATOR) == pieces;
  }

  /** A canonical decimal is a non-empty, trimmed, separator-free segment text. */
  lemma CanonicalText(text: string)
    requires CanonicalDigits(text)
    ensures text != [] && Trimmed(text) && SEPARATOR !in text
  {
    assert IsDigit(text[0]) && IsDigit(text[|text| - 1]);
  }

  /** The constructor splits a canonical text into the segment texts it was joined from. */
  lemma CanonicalComponents(parts: seq<string>)
    requires 1 <= |parts| <= MAX_SEGMENTS
    requires forall i :: 0 <= i < |parts| ==> CanonicalDigits(parts[i])
    ensures Components(Join(parts, SEPARATOR)) == parts
  {
    var text := Join(parts, SEPARATOR);
    forall i | 0 <= i < |parts|
      ensures parts[i] != [] && Trimmed(parts[i]) && SEPARATOR !in parts[i]
    {
      CanonicalText(parts[i]);
    }
    JoinTrimmed(parts, SEPARATOR);
    TrimTrimmed(text);
    SplitJoin(parts, SEPARATOR);
    assert Trim(text) == text && Split(text, SEPARATOR) == parts;
    assert Min(|parts|, MAX_SEGMENTS) == |parts|;
  }

  /** Long.parseLong accepts canonical decimals, and Long.toString spells the values back. */
  lemma {:induction false} ParseSegmentsCanonical(parts: seq<string>)
    requires forall i :: 0 <= i < |parts| ==> CanonicalDigits(parts[i]) && DigitsValue(parts[i]) <= LONG_MAX
    ensures ParseSegments(parts).Success? && Texts(ParseSegments(parts).value) == parts
    decreases |parts|
  {
    if parts != [] {
      ToStringParseLong(parts[0]);
      ParseSegmentsCanonical(parts[1..]);
      var rest := ParseSegments(parts[1..]).value;
      var n := ParseLong(parts[0]).value;
      assert ParseSegments(parts) == Success([n] + rest);
      assert Texts([n] + rest) == [parts[0]] + parts[1..];
    }
  }

  /** A version written canonically with one to three segments (no sign, no superfluous
      leading zero, each within the `long` range) is parsed and printed back unchanged. */
  lemma PrintParse(parts: seq<string>)
    requires 1 <= |parts| <= MAX_SEGMENTS
    requires forall i :: 0 <= i < |parts| ==> CanonicalDigits(parts[i]) && DigitsValue(parts[i]) <= LONG_MAX
    ensures Parse(Some(Join(parts, SEPARATOR))).Success?
    ensures Print(Parse(Some(Join(parts, SEPARATOR))).value) == Join(parts, SEPARATOR)
  {
    assert Components(Join(parts, SEPARATOR)) == parts by {
      CanonicalComponents(parts);
    }
    ParseSegmentsCanonical(parts);
  }

  // ---------------------------------------------------------------------------
  // hashCode and equals

  /** The mathematical sum of the segments. */
  function Sum(segments: seq<Long>): int
    decreases |segments|
  {
    if segments == [] then 0 else Sum(segments[..|segments| - 1]) + segments[|segments| - 1]
  }

  /** hashCode: `int hashCode += segment` widens to `long`, adds with 64-bit wrap-around and
      narrows back to `int`; the result is the sum of the segments reduced to 32 bits. */
  method HashCode(v: BundleVersion) returns (h: Int)
    ensures h == ToInt(Sum(v.segments))
  {
    h := 0;
    for i := 0 to |v.segments|
      invariant h == ToInt(Sum(v.segments[..i]))
    {
      var segment := v.segments[i];
      assert v.segments[..i + 1][..i] == v.segments[..i];
      ToIntOfToLong(h + segment);
      ToIntCongruent(h + segment, Sum(v.segments[..i + 1]));
      h := ToInt(ToLong(h + segment));
    }
    assert v.segments[..|v.segments|] == v.segments;
  }

  /** equals: same length and the same segment at every position. */
  method Equals(a: BundleVersion, b: BundleVersion) returns (r: bool)
    ensures r <==> a == b
  {
    if |a.segments| != |b.segments| {
      return false;
    }
    for i := 0 to |a.segments|
      invariant a.segments[..i] == b.segments[..i]
    {
      if a.segments[i] != b.segments[i] {
        return false;
      }
      assert a.segments[..i + 1] == a.segments[..i] + [a.segments[i]];
      assert b.segments[..i + 1] == b.segments[..i] + [b.segments[i]];
    }
    assert a.segments == a.segments[..|a.segments|];
    assert b.segments == b.segments[..|b.segments|];
    return true;
  }

  // ---------------------------------------------------------------------------
  // compareTo

  /** What the loop decides once one version has run out of segments: the longer is greater. */
  function LengthOrder(a: nat, b: nat): int {
    if a > b then 1 else if a < b then -1 else 0
  }

  /** compareTo as written: the first pair of segments whose `long` difference is not zero
      decides by the sign of that difference, which wraps around when it overflows. */
  function CompareToAsWritten(a: seq<Long>, b: seq<Long>): (r: int)
    ensures r == -1 || r == 0 || r == 1
    ensures r == 0 <==> a == b
    decreases |a|
  {
    if a == [] || b == [] then LengthOrder(|a|, |b|)
    else
      var result := ToLong((a[0] as int) - (b[0] as int));
      ToLongZero((a[0] as int) - (b[0] as int));
      if result < 0 then -1
      else if result > 0 then 1
      else
        assert a == [a[0]] + a[1..] && b == [b[0]] + b[1..];
        CompareToAsWritten(a[1..], b[1..])
  }

  /** A difference of two `long`s wraps to zero only when it is zero. */
  lemma ToLongZero(x: int)
    requires -0x1_0000_0000_0000_0000 < x < 0x1_0000_0000_0000_0000
    ensures ToLong(x) == 0 <==> x == 0
  {
    if ToLong(x) == 0 {
      var k := x / 0x1_0000_0000_0000_0000;
      assert x == k * 0x1_0000_0000_0000_0000;
    }
  }

  /** compareTo as evidently intended: the first pair of different segments decides by
      their numeric order (Long.compare), and a proper prefix is smaller. */
  function Compare(a: seq<Long>, b: seq<Long>): (r: int)
    ensures r == -1 || r == 0 || r == 1
    ensures r == 0 <==> a == b
    decreases |a|
  {
    if a == [] || b == [] then LengthOrder(|a|, |b|)
    else if a[0] < b[0] then -1
    else if a[0] > b[0] then 1
    else
      assert a == [a[0]] + a[1..] && b == [b[0]] + b[1..];
      Compare(a[1..], b[1..])
  }

  /** compareTo with the corrected segment comparison. */
  function CompareTo(a: BundleVersion, b: BundleVersion): (r: int)
    ensures r == -1 || r == 0 || r == 1
    ensures r == 0 <==> a == b
  {
    Compare(a.segments, b.segments)
  }

  /** Swapping the operands negates the result. */
  lemma {:induction false} CompareAntisymmetric(a: seq<Long>, b: seq<Long>)
    ensures Compare(b, a) == -Compare(a, b)
    decreases |a|
  {
    if a != [] && b != [] && a[0] == b[0] {
      CompareAntisymmetric(a[1..], b[1..]);
    }
  }

  /** The order is transitive. */
  lemma {:induction false} CompareTransitive(a: seq<Long>, b: seq<Long>, c: seq<Long>)
    requires Compare(a, b) == -1 && Compare(b, c) == -1
    ensures Compare(a, c) == -1
    decreases |a|
  {
    if a != [] && b != [] && c != [] && a[0] == b[0] && b[0] == c[0] {
      CompareTransitive(a[1..], b[1..], c[1..]);
    }
  }

  /** A version is smaller than every proper extension of it ("1.2" before "1.2.0"). */
  lemma {:induction false} ComparePrefix(a: seq<Long>, b: seq<Long>)
    requires |a| < |b| && a == b[..|a|]
    ensures Compare(a, b) == -1
    decreases |a|
  {
    if a != [] {
      assert a[1..] == b[1..][..|a| - 1];
      ComparePrefix(a[1..], b[1..]);
    }
  }

  /** The segments decide pairwise without the difference overflowing. */
  predicate NoOverflow(a: seq<Long>, b: seq<Long>) {
    forall i :: 0 <= i < |a| && i < |b| ==> LONG_MIN <= a[i] - b[i] <= LONG_MAX
  }

  /** Where no difference overflows, compareTo as written agrees with the intended order;
      in particular it does for versions without negative segments. */
  lemma {:induction false} CompareToAgrees(a: seq<Long>, b: seq<Long>)
    requires NoOverflow(a, b) || ((forall i :: 0 <= i < |a| ==> a[i] >= 0) && (forall i :: 0 <= i < |b| ==> b[i] >= 0))
    ensures CompareToAsWritten(a, b) == Compare(a, b)
    decreases |a|
  {
    if a != [] && b != [] {
      assert LONG_MIN <= a[0] - b[0] <= LONG_MAX by {
        if NoOverflow(a, b) {
          assert 0 < |a| && 0 < |b|;
        }
      }
      if a[0] == b[0] {
        assert NoOverflow(a, b) ==> NoOverflow(a[1..], b[1..]) by {
          if NoOverflow(a, b) {
            forall i | 0 <= i < |a[1..]| && i < |b[1..]|
              ensures LONG_MIN <= a[1..][i] - b[1..][i] <= LONG_MAX
            {
              assert a[1..][i] == a[i + 1] && b[1..][i] == b[i + 1];
            }
          }
        }
        CompareToAgrees(a[1..], b[1..]);
      }
    }
  }

  /** compareTo as written is not antisymmetric: Long.MAX_VALUE - (-1) wraps to
      Long.MIN_VALUE, so "9223372036854775807" and "-1" are each smaller than the other. */
  lemma CompareToOverflowWitness()
    ensures CompareToAsWritten([LONG_MAX], [-1]) == -1
    ensures CompareToAsWritten([-1], [LONG_MAX]) == -1
    ensures CompareTo(BundleVersion([LONG_MAX]), BundleVersion([-1])) == 1
  {
    assert ToLong(LONG_MAX - (-1)) == LONG_MIN;
    assert ToLong(-1 - LONG_MAX) == LONG_MIN;
  }
}

=== FILE: export_package.dfy ===
/** The Export-Package rewrite of SetExportPackageVersionTask: every exported package
    clause of a bundle's manifest receives the bundle's version as its first attribute,
    `version="<Bundle-Version>"`, and a bundle that already states a package version
    by hand is rejected. */
module ExportPackage {
  import opened Wrappers
  import opened JavaLang
  import opened ManifestList
  import opened ManifestListLemmas

  /** Why the rewrite of one bundle fails (the Ant task calls fail, which throws). */
  datatype RewriteError =
    | MissingBundleVersion
    | ManualVersion(package: string)

  const VERSION_KEY: string := "version="

  /** The attribute the rewrite inserts. */
  function VersionAttribute(version: string): (r: string)
    ensures StartsWith(r, VERSION_KEY)
  {
    VERSION_KEY + [QUOTE] + version + [QUOTE]
  }

  /** The clause states its package version by hand. */
  predicate HasManualVersion(e: Entry) {
    exists i :: 0 <= i < |e.attributes| && StartsWith(e.attributes[i], VERSION_KEY)
  }

  /** The test is exact and case-sensitive on the untrimmed attribute: an attribute that
      does not begin with a lower-case 'v', such as ` version=1` or `Version=1`, is not a
      manual version. */
  lemma NotManualVersion(e: Entry)
    requires forall i :: 0 <= i < |e.attributes| ==> e.attributes[i] == [] || e.attributes[i][0] != 'v'
    ensures !HasManualVersion(e)
  {
    forall i | 0 <= i < |e.attributes| ensures !StartsWith(e.attributes[i], VERSION_KEY) {
      var a := e.attributes[i];
      if |a| >= |VERSION_KEY| {
        assert a[..|VERSION_KEY|][0] == a[0];
      }
    }
  }

  /** The clause with the version attribute inserted in front of its own attributes. The
      stamped clause states a version, so the rewrite would reject it. */
  function Stamp(e: Entry, version: string): (r: Entry)
    ensures r.bundle == e.bundle && HasManualVersion(r)
    ensures r.attributes[0] == VersionAttribute(version) && r.attributes[1..] == e.attributes
  {
    var r := Entry(e.bundle, [VersionAttribute(version)] + e.attributes);
    assert StartsWith(r.attributes[0], VERSION_KEY);
    r
  }

  function StampAll(es: seq<Entry>, version: string): (r: seq<Entry>)
    ensures |r| == |es|
    ensures forall i :: 0 <= i < |r| ==> r[i] == Stamp(es[i], version)
  {
    seq(|es|, i requires 0 <= i < |es| => Stamp(es[i], version))
  }

  /** The loop over the parsed clauses: a clause with a manual version fails; otherwise the
      stamped clause is appended to `buffer`, after a ',' when the buffer is not empty. */
  function AppendClauses(buffer: string, es: seq<Entry>, version: string): (r: Result<string, RewriteError>)
    decreases |es|
  {
    if es == [] then Success(buffer)
    else if HasManualVersion(es[0]) then Failure(ManualVersion(es[0].bundle))
    else
      var separated := if |buffer| > 0 then buffer + [COMMA] else buffer;
      AppendClauses(separated + ToString(Stamp(es[0], version)), es[1..], version)
  }

  /** The rewrite of one bundle's manifest. No Export-Package header: nothing to do
      (`None`). A header without a Bundle-Version fails; so does a clause that already has a
      `version=` attribute, naming the first such clause. Otherwise the new header value. */
  function Rewrite(exportPackage: Option<string>, bundleVersion: Option<string>): (r: Result<Option<string>, RewriteError>)
    ensures exportPackage.None? ==> r == Success(None)
    ensures exportPackage.Some? && bundleVersion.None? ==> r == Failure(MissingBundleVersion)
  {
    match exportPackage
    case None => Success(None)
    case Some(header) =>
      match bundleVersion
      case None => Failure(MissingBundleVersion)
      case Some(version) =>
        var text :- AppendClauses([], Parse(header), version);
        Success(Some(text))
  }

  // ---------------------------------------------------------------------------
  // What the loop computes

  /** The first clause with a manual version. */
  predicate FirstManual(es: seq<Entry>, i: int) {
    0 <= i < |es| && HasManualVersion(es[i]) && forall j :: 0 <= j < i ==> !HasManualVersion(es[j])
  }

  /** What the loop leaves: it fails exactly when some clause states a version by hand,
      naming the first such clause; otherwise it appends the stamped clauses, comma-separated,
      to the buffer. */
  ghost predicate LoopOutcome(buffer: string, es: seq<Entry>, version: string) {
    var r := AppendClauses(buffer, es, version);
    && (r.Success? <==> forall i :: 0 <= i < |es| ==> !HasManualVersion(es[i]))
    && (r.Failure? ==> exists i :: FirstManual(es, i) && r.error == ManualVersion(es[i].bundle))
    && (r.Success? ==> r.value == if es == [] then buffer
                                  else if buffer == [] then Serialize(StampAll(es, version))
                                  else buffer + [COMMA] + Serialize(StampAll(es, version)))
  }

  lemma {:induction false} AppendClausesResult(buffer: string, es: seq<Entry>, version: string)
    requires forall i :: 0 <= i < |es| ==> es[i].bundle != []
    ensures LoopOutcome(buffer, es, version)
    decreases |es|
  {
    if es != [] {
      if HasManualVersion(es[0]) {
        assert FirstManual(es, 0);
      } else {
        var next := (if |buffer| > 0 then buffer + [COMMA] else buffer) + ToString(Stamp(es[0], version));
        assert next != [] by {
          assert |ToString(Stamp(es[0], version))| >= |es[0].bundle|;
        }
        AppendClausesResult(next, es[1..], version);
        AppendClausesInduct(buffer, es, version);
      }
    }
  }

  /** The outcome for the remaining clauses gives the outcome for the whole list. */
  lemma AppendClausesInduct(buffer: string, es: seq<Entry>, version: string)
    requires es != [] && !HasManualVersion(es[0])
    requires var next := (if |buffer| > 0 then buffer + [COMMA] else buffer) + ToString(Stamp(es[0], version));
      next != [] && LoopOutcome(next, es[1..], version)
    ensures LoopOutcome(buffer, es, version)
  {
    var next := (if |buffer| > 0 then buffer + [COMMA] else buffer) + ToString(Stamp(es[0], version));
    AppendClausesStep(buffer, es, version);
    ManualShift(es);
    var r := AppendClauses(next, es[1..], version);
    if r.Failure? {
      var i :| FirstManual(es[1..], i) && r.error == ManualVersion(es[1..][i].bundle);
      FirstManualShift(es, i);
    } else {
      AppendClausesSerialize(buffer, es, version);
    }
  }

  /** The first clause has no manual version: the whole list has none iff the rest has none. */
  lemma ManualShift(es: seq<Entry>)
    requires es != [] && !HasManualVersion(es[0])
    ensures (forall i :: 0 <= i < |es| ==> !HasManualVersion(es[i]))
        <==> (forall i :: 0 <= i < |es[1..]| ==> !HasManualVersion(es[1..][i]))
  {
    if forall i :: 0 <= i < |es[1..]| ==> !HasManualVersion(es[1..][i]) {
      forall i | 0 <= i < |es| ensures !HasManualVersion(es[i]) {
        if i > 0 {
          assert es[i] == es[1..][i - 1];
        }
      }
    }
  }

  lemma FirstManualShift(es: seq<Entry>, i: int)
    requires es != [] && !HasManualVersion(es[0]) && FirstManual(es[1..], i)
    ensures FirstManual(es, i + 1) && es[1..][i] == es[i + 1]
  {
    forall j | 0 <= j < i + 1 ensures !HasManualVersion(es[j]) {
      if j > 0 {
        assert es[j] == es[1..][j - 1];
      }
    }
  }

  /** The success case of `AppendClausesResult` for a non-empty list, one step unfolded. */
  lemma AppendClausesSerialize(buffer: string, es: seq<Entry>, version: string)
    requires es != [] && !HasManualVersion(es[0])
    requires var next := (if |buffer| > 0 then buffer + [COMMA] else buffer) + ToString(Stamp(es[0], version));
      var r := AppendClauses(next, es[1..], version);
      r.Success? && r.value == if es[1..] == [] then next else next + [COMMA] + Serialize(StampAll(es[1..], version))
    ensures AppendClauses(buffer, es, version).Success?
    ensures AppendClauses(buffer, es, version).value
         == if buffer == [] then Serialize(StampAll(es, version)) else buffer + [COMMA] + Serialize(StampAll(es, version))
  {
    AppendClausesStep(buffer, es, version);
    SerializeStampAll(es, version);
    var next := (if |buffer| > 0 then buffer + [COMMA] else buffer) + ToString(Stamp(es[0], version));
    SeparatedConcat(buffer, ToString(Stamp(es[0], version)), Serialize(StampAll(es[1..], version)), |es| == 1,
                    AppendClauses(next, es[1..], version).value, Serialize(StampAll(es, version)));
  }

  /** Text bookkeeping of one loop turn: appending `first` after the optional ',' and then the
      rest is appending the whole list after the optional ','. */
  lemma SeparatedConcat(buffer: string, first: string, rest: string, last: bool, value: string, whole: string)
    requires var next := (if |buffer| > 0 then buffer + [COMMA] else buffer) + first;
      value == if last then next else next + [COMMA] + rest
    requires whole == first + if last then [] else [COMMA] + rest
    ensures value == if buffer == [] then whole else buffer + [COMMA] + whole
  {
    if !last && buffer != [] {
      assert buffer + [COMMA] + first + [COMMA] + rest == buffer + [COMMA] + (first + ([COMMA] + rest));
    }
  }

  /** One turn of the loop over a clause without a manual version. */
  lemma AppendClausesStep(buffer: string, es: seq<Entry>, version: string)
    requires es != [] && !HasManualVersion(es[0])
    ensures var next := (if |buffer| > 0 then buffer + [COMMA] else buffer) + ToString(Stamp(es[0], version));
      AppendClauses(buffer, es, version) == AppendClauses(next, es[1..], version)
  {
  }

  /** The stamped clauses, printed: the first one, then ',' and the others if there are any. */
  lemma SerializeStampAll(es: seq<Entry>, version: string)
    requires es != []
    ensures Serialize(StampAll(es, version))
         == ToString(Stamp(es[0], version)) + if |es| == 1 then [] else [COMMA] + Serialize(StampAll(es[1..], version))
  {
    var stamped := StampAll(es, version);
    assert stamped[0] == Stamp(es[0], version);
    assert stamped[1..] == StampAll(es[1..], version);
  }

  /** With the header and the Bundle-Version present, the rewrite succeeds exactly when no
      clause states a version by hand; it then writes the stamped clauses comma-separated, and
      otherwise names the first clause that does. */
  lemma RewriteResult(header: string, version: string)
    ensures var es := Parse(header);
      var r := Rewrite(Some(header), Some(version));
      && (r.Success? <==> forall i :: 0 <= i < |es| ==> !HasManualVersion(es[i]))
      && (r.Success? ==> r.value == Some(Serialize(StampAll(es, version))))
      && (r.Failure? ==> exists i :: FirstManual(es, i) && r.error == ManualVersion(es[i].bundle))
  {
    var es := Parse(header);
    AppendClausesResult([], es, version);
    if es == [] {
      assert Serialize(StampAll(es, version)) == [];
    }
  }

  // ---------------------------------------------------------------------------
  // The rewritten header reads back as intended

  /** Quote-free text is readable whether or not the input ends after it. */
  lemma {:induction false} NormalQuoteFree(t: string, atEnd: bool)
    requires QUOTE !in t && NormalText(t, atEnd)
    ensures NormalText(t, false)
    decreases |t|
  {
    if t != [] {
      assert t[0] in t;
      assert QUOTE !in t[1..] by {
        forall c | c in t[1..] ensures c in t {}
      }
      NormalQuoteFree(t[1..], atEnd);
    }
  }

  /** A stamped clause with a quote-free identifier reads back as itself wherever it stands. */
  lemma StampOk(e: Entry, version: string, last: bool)
    requires ClauseOk(e, last) && QUOTE !in e.bundle && QUOTE !in version
    ensures ClauseOk(Stamp(e, version), last)
  {
    var s := Stamp(e, version);
    NormalQuoteFree(e.bundle, last && e.attributes == []);
    assert Plain(VERSION_KEY);
    NormalQuotedValue(VERSION_KEY, version, last && |s.attributes| == 1);
    forall i | 0 <= i < |s.attributes|
      ensures NormalText(s.attributes[i], last && i == |s.attributes| - 1)
    {
      if i > 0 {
        assert s.attributes[i] == e.attributes[i - 1];
      }
    }
  }

  /** The Export-Package header is parsed back, in later builds, as the original clauses
      each with the version attribute in front, provided neither a package name nor the
      Bundle-Version contains a '"'. */
  lemma RewriteReparses(header: string, version: string)
    requires QUOTE !in version
    requires forall i :: 0 <= i < |Parse(header)| ==> QUOTE !in Parse(header)[i].bundle
    requires Rewrite(Some(header), Some(version)).Success?
    ensures Parse(Rewrite(Some(header), Some(version)).value.value) == StampAll(Parse(header), version)
  {
    var es := Parse(header);
    RewriteResult(header, version);
    ParseFromOk(header, 0);
    var stamped := StampAll(es, version);
    forall i | 0 <= i < |stamped|
      ensures ClauseOk(stamped[i], i == |stamped| - 1)
    {
      StampOk(es[i], version, i == |es| - 1);
    }
    ParseSerialize(stamped);
  }

  /** Rewriting a rewritten header fails as soon as it has a clause: every clause now states
      a version, so the Ant task must not run twice over the same bundle. */
  lemma RewriteTwiceFails(header: string, version: string)
    requires QUOTE !in version
    requires forall i :: 0 <= i < |Parse(header)| ==> QUOTE !in Parse(header)[i].bundle
    requires Rewrite(Some(header), Some(version)).Success? && Parse(header) != []
    ensures var once := Rewrite(Some(header), Some(version)).value.value;
      Rewrite(Some(once), Some(version)) == Failure(ManualVersion(Parse(header)[0].bundle))
  {
    var once := Rewrite(Some(header), Some(version)).value.value;
    RewriteReparses(header, version);
    var es := Parse(once);
    assert HasManualVersion(es[0]) by {
      assert es[0].attributes[0] == VersionAttribute(version);
    }
    RewriteResult(once, version);
    var r := Rewrite(Some(once), Some(version));
    var i :| FirstManual(es, i) && r.error == ManualVersion(es[i].bundle);
    assert i == 0;
  }
}

=== FILE: export_package_examples.dfy ===
/** A worked Export-Package rewrite. */
module ExportPackageExamples {
  import opened Wrappers
  import opened JavaLang
  import opened ManifestList
  import opened ManifestListExamples
  import opened ExportPackage

  /** Each exported package receives the bundle's version as its first attribute. */
  lemma RewriteTwoPackages()
    ensures Rewrite(Some("a,b;x:=y"), Some("1.0")) == Success(Some("a;version=\"1.0\",b;version=\"1.0\";x:=y"))
  {
    var es := [Entry("a", []), Entry("b", ["x:=y"])];
    TwoPackagesParsed(es);
    TwoPackagesUnversioned(es);
    TwoPackagesStamped(es);
    RewriteResult("a,b;x:=y", "1.0");
  }

  lemma TwoPackagesUnversioned(es: seq<Entry>)
    requires es == [Entry("a", []), Entry("b", ["x:=y"])]
    ensures forall i :: 0 <= i < |es| ==> !HasManualVersion(es[i])
  {
    assert !StartsWith("x:=y", VERSION_KEY) by {
      assert "x:=y"[..0] != VERSION_KEY[..0] || "x:=y"[0] != VERSION_KEY[0];
    }
    assert !HasManualVersion(es[1]);
  }

  lemma TwoPackagesStamped(es: seq<Entry>)
    requires es == [Entry("a", []), Entry("b", ["x:=y"])]
    ensures Serialize(StampAll(es, "1.0")) == "a;version=\"1.0\",b;version=\"1.0\";x:=y"
  {
    var x := Stamp(es[0], "1.0");
    var y := Stamp(es[1], "1.0");
    assert StampAll(es, "1.0") == [x, y];
    SerializeTwo(x, y);
    FirstStamped();
    SecondStamped();
  }

  lemma SerializeTwo(x: Entry, y: Entry)
    ensures Serialize([x, y]) == ToString(x) + [COMMA] + ToString(y)
  {
    assert [x, y][1..] == [y];
  }

  lemma FirstStamped()
    ensures ToString(Stamp(Entry("a", []), "1.0")) == "a;version=\"1.0\""
  {
    StampedText(Entry("a", []), "1.0");
  }

  lemma SecondStamped()
    ensures ToString(Stamp(Entry("b", ["x:=y"]), "1.0")) == "b;version=\"1.0\";x:=y"
  {
    StampedText(Entry("b", ["x:=y"]), "1.0");
    assert AttributesText(["x:=y"]) == ";x:=y" by {
      assert ["x:=y"][1..] == [];
    }
  }

  /** The printed form of a stamped clause. */
  lemma StampedText(e: Entry, version: string)
    ensures ToString(Stamp(e, version)) == e.bundle + [SEMICOLON] + VersionAttribute(version) + AttributesText(e.attributes)
  {
    var attributes := [VersionAttribute(version)] + e.attributes;
    assert attributes[1..] == e.attributes;
  }

  lemma TwoPackagesParsed(es: seq<Entry>)
    requires es == [Entry("a", []), Entry("b", ["x:=y"])]
    ensures Parse("a,b;x:=y") == es
  {
    assert Serialize(es) == "a,b;x:=y" by {
      assert ToString(es[1]) == "b;x:=y";
    }
    assert ClausesOk(es) by {
      assert ClauseOk(es[0], false) by {
        assert NormalText("a", false);
      }
      assert ClauseOk(es[1], true) by {
        assert NormalText("b", false) && NormalText("x:=y", true);
      }
    }
    ParsePrinted("a,b;x:=y", es);
  }
}

=== FILE: java_lang.dfy ===
/** The pieces of java.lang the core relies on, written out explicitly:
    fixed-width integers, String.trim, String.startsWith, String.split on a
    one-character separator, Long.parseLong and Long.toString. */
module JavaLang {
  import opened Wrappers

  const LONG_MIN: int := -0x8000_0000_0000_0000
  const LONG_MAX: int := 0x7FFF_FFFF_FFFF_FFFF
  const INT_MIN: int := -0x8000_0000
  const INT_MAX: int := 0x7FFF_FFFF

  /** A Java `long`. */
  type Long = x: int | -0x8000_0000_0000_0000 <= x <= 0x7FFF_FFFF_FFFF_FFFF

  /** A Java `int`. */
  type Int = x: int | -0x8000_0000 <= x <= 0x7FFF_FFFF

  // ---------------------------------------------------------------------------
  // Two's-complement wrap-around

  /** The `long` that Java arithmetic yields for the mathematical value `x`. */
  function ToLong(x: int): (r: Long)
    ensures (x - r) % 0x1_0000_0000_0000_0000 == 0
    ensures LONG_MIN <= x <= LONG_MAX ==> r == x
  {
    var m := x % 0x1_0000_0000_0000_0000;
    if m > LONG_MAX then m - 0x1_0000_0000_0000_0000 else m
  }

  /** The `int` that a narrowing cast `(int)` yields for the value `x`. */
  function ToInt(x: int): (r: Int)
    ensures (x - r) % 0x1_0000_0000 == 0
    ensures INT_MIN <= x <= INT_MAX ==> r == x
  {
    var m := x % 0x1_0000_0000;
    if m > INT_MAX then m - 0x1_0000_0000 else m
  }

  /** `ToInt` only depends on the residue modulo 2^32. */
  lemma ToIntCongruent(x: int, y: int)
    requires (x - y) % 0x1_0000_0000 == 0
    ensures ToInt(x) == ToInt(y)
  {
    var k := (x - y) / 0x1_0000_0000;
    assert x == y + k * 0x1_0000_0000;
    assert x % 0x1_0000_0000 == y % 0x1_0000_0000;
  }

  /** Narrowing a wrapped `long` to `int` forgets the wrap: both only keep bits below 2^32. */
  lemma ToIntOfToLong(x: int)
    ensures ToInt(ToLong(x)) == ToInt(x)
  {
    var k := (x - ToLong(x)) / 0x1_0000_0000_0000_0000;
    assert x - ToLong(x) == (k * 0x1_0000_0000) * 0x1_0000_0000;
    ToIntCongruent(ToLong(x), x);
  }

  // ---------------------------------------------------------------------------
  // String.trim

  /** String.trim treats every char at or below U+0020 as trimmable. */
  predicate Trimmable(c: char) {
    c <= ' '
  }

  function TrimStart(s: string): (r: string)
    ensures |r| <= |s| && r == s[|s| - |r|..]
    ensures forall i :: 0 <= i < |s| - |r| ==> Trimmable(s[i])
    ensures r != [] ==> !Trimmable(r[0])
    decreases |s|
  {
    if s != [] && Trimmable(s[0]) then TrimStart(s[1..]) else s
  }

  function TrimEnd(s: string): (r: string)
    ensures |r| <= |s| && r == s[..|r|]
    ensures forall i :: |r| <= i < |s| ==> Trimmable(s[i])
    ensures r != [] ==> !Trimmable(r[|r| - 1])
    decreases |s|
  {
    if s != [] && Trimmable(s[|s| - 1]) then TrimEnd(s[..|s| - 1]) else s
  }

  /** `s` has nothing for String.trim to remove. */
  predicate Trimmed(s: string) {
    s == [] || (!Trimmable(s[0]) && !Trimmable(s[|s| - 1]))
  }

  /** String.trim: the longest factor of `s` that neither starts nor ends with a trimmable char,
      obtained by dropping trimmable chars from both ends. */
  function Trim(s: string): (r: string)
    ensures Trimmed(r) && |r| <= |s|
  {
    TrimEnd(TrimStart(s))
  }

  /** What String.trim removes: the result is a factor of `s` with only trimmable chars
      before and after it. */
  lemma TrimFactor(s: string) returns (i: nat)
    ensures i + |Trim(s)| <= |s| && Trim(s) == s[i..i + |Trim(s)|]
    ensures forall k :: 0 <= k < i ==> Trimmable(s[k])
    ensures forall k :: i + |Trim(s)| <= k < |s| ==> Trimmable(s[k])
  {
    var t := TrimStart(s);
    var r := TrimEnd(t);
    i := |s| - |t|;
    PrefixOfSuffix(s, i, t, r);
  }

  /** A prefix `r` of the suffix `t` of `s` from `i` is the factor of `s` at `i`. */
  lemma PrefixOfSuffix(s: string, i: nat, t: string, r: string)
    requires i <= |s| && t == s[i..] && |r| <= |t| && r == t[..|r|]
    ensures i + |r| <= |s| && r == s[i..i + |r|]
  {
  }

  /** `t` consists of chars String.trim removes (and may be empty). */
  predicate Blank(t: string) {
    forall i :: 0 <= i < |t| ==> Trimmable(t[i])
  }

  /** String.trim of blank text is empty. */
  lemma {:induction false} TrimBlank(t: string)
    requires Blank(t)
    ensures Trim(t) == []
    decreases |t|
  {
    if t != [] {
      assert Blank(t[1..]) by {
        forall i | 0 <= i < |t[1..]| ensures Trimmable(t[1..][i]) {
          assert t[1..][i] == t[i + 1];
        }
      }
      TrimBlank(t[1..]);
      assert TrimStart(t) == TrimStart(t[1..]);
    }
  }

  /** String.trim of a text that starts with a kept char removes only chars at the end, and
      only from the part `q` after the kept char `x` ends with. */
  lemma {:induction false} TrimAfter(x: string, q: string)
    requires x != [] && !Trimmable(x[0]) && !Trimmable(x[|x| - 1])
    ensures Trim(x + q) == x + TrimEnd(q)
    decreases |q|
  {
    assert (x + q)[0] == x[0];
    if q != [] {
      assert (x + q)[|x + q| - 1] == q[|q| - 1];
      if Trimmable(q[|q| - 1]) {
        assert (x + q)[..|x + q| - 1] == x + q[..|q| - 1];
        TrimAfter(x, q[..|q| - 1]);
        assert (x + q[..|q| - 1])[0] == x[0];
      }
    }
  }

  /** Trimmable chars in front of a text that does not start with one are all dropped. */
  lemma {:induction false} TrimStartBlank(x: string, t: string)
    requires Blank(x) && (t == [] || !Trimmable(t[0]))
    ensures TrimStart(x + t) == t
    decreases |x|
  {
    if x == [] {
      assert x + t == t;
    } else {
      assert (x + t)[0] == x[0];
      assert (x + t)[1..] == x[1..] + t;
      assert Blank(x[1..]) by {
        forall i | 0 <= i < |x[1..]| ensures Trimmable(x[1..][i]) {
          assert x[1..][i] == x[i + 1];
        }
      }
      TrimStartBlank(x[1..], t);
    }
  }

  /** String.trim strips blank padding on both sides of a non-empty trimmed text, and only
      that padding. */
  lemma TrimPadded(x: string, b: string, y: string)
    requires Blank(x) && Blank(y) && b != [] && Trimmed(b)
    ensures Trim(x + b + y) == b
  {
    assert x + b + y == x + (b + y);
    assert (b + y)[0] == b[0];
    TrimStartBlank(x, b + y);
    TrimAfter(b, y);
  }

  /** Trimming an already trimmed string changes nothing, so `Trim` is idempotent. */
  lemma TrimTrimmed(s: string)
    requires Trimmed(s)
    ensures Trim(s) == s
  {
  }

  // ---------------------------------------------------------------------------
  // String.startsWith

  predicate StartsWith(s: string, prefix: string) {
    |prefix| <= |s| && s[..|prefix|] == prefix
  }

  // ---------------------------------------------------------------------------
  // String.split on a one-character separator, and its inverse

  /** `parts` joined with `sep` between neighbours (no leading or trailing separator). */
  function Join(parts: seq<string>, sep: char): (r: string)
    ensures |parts| == 1 ==> r == parts[0]
    decreases |parts|
  {
    if parts == [] then []
    else if |parts| == 1 then parts[0]
    else parts[0] + [sep] + Join(parts[1..], sep)
  }

  /** Appending a piece to a non-empty list appends a separator and the piece to its join. */
  lemma {:induction false} JoinSnoc(parts: seq<string>, last: string, sep: char)
    requires parts != []
    ensures Join(parts + [last], sep) == Join(parts, sep) + [sep] + last
    decreases |parts|
  {
    if |parts| > 1 {
      JoinSnoc(parts[1..], last, sep);
      assert (parts + [last])[1..] == parts[1..] + [last];
    } else {
      assert (parts + [last])[1..] == [last];
    }
  }

  /** Joining two non-empty lists puts one separator between their joins. */
  lemma {:induction false} JoinConcat(a: seq<string>, b: seq<string>, sep: char)
    requires a != [] && b != []
    ensures Join(a + b, sep) == Join(a, sep) + [sep] + Join(b, sep)
    decreases |a|
  {
    if |a| > 1 {
      JoinConcat(a[1..], b, sep);
      assert (a + b)[1..] == a[1..] + b;
    } else {
      assert (a + b)[1..] == b;
    }
  }

  /** Text between two non-empty trimmed texts does not affect trimming. */
  lemma TrimmedAround(x: string, m: string, z: string)
    requires x != [] && z != [] && Trimmed(x) && Trimmed(z)
    ensures Trimmed(x + m + z)
  {
    assert (x + m + z)[0] == x[0];
    assert (x + m + z)[|x + m + z| - 1] == z[|z| - 1];
  }

  /** A join of non-empty trimmed pieces around a non-trimmable separator is trimmed. */
  lemma {:induction false} JoinTrimmed(parts: seq<string>, sep: char)
    requires |parts| >= 1 && !Trimmable(sep)
    requires forall i :: 0 <= i < |parts| ==> parts[i] != [] && Trimmed(parts[i])
    ensures Join(parts, sep) != [] && Trimmed(Join(parts, sep))
    decreases |parts|
  {
    if |parts| > 1 {
      JoinTrimmed(parts[1..], sep);
      var rest := Join(parts[1..], sep);
      assert Join(parts, sep) == parts[0] + [sep] + rest;
      assert Join(parts, sep)[0] == parts[0][0];
      assert Join(parts, sep)[|Join(parts, sep)| - 1] == rest[|rest| - 1];
    }
  }

  /** Every piece between separators, empty pieces included (`split` with a negative limit). */
  function SplitAll(s: string, sep: char): (r: seq<string>)
    ensures |r| >= 1
    decreases |s|
  {
    if s == [] then [[]]
    else
      var rest := SplitAll(s[1..], sep);
      if s[0] == sep then
        [[]] + rest
      else
        [[s[0]] + rest[0]] + rest[1..]
  }

  /** Removes empty strings from the end, as String.split does for a zero limit. */
  function DropTrailingEmpty(parts: seq<string>): (r: seq<string>)
    ensures |r| <= |parts| && r == parts[..|r|]
    ensures r != [] ==> r[|r| - 1] != []
    ensures forall i :: |r| <= i < |parts| ==> parts[i] == []
    decreases |parts|
  {
    if parts != [] && parts[|parts| - 1] == [] then DropTrailingEmpty(parts[..|parts| - 1]) else parts
  }

  /** String.split(regex) for a regex matching exactly `sep`: when `sep` does not occur the
      result is the whole string (so "" gives [""]); otherwise the pieces between separators
      with trailing empty pieces removed (so "." gives []). */
  function Split(s: string, sep: char): (r: seq<string>)
    ensures sep !in s ==> r == [s]
  {
    if sep !in s then [s] else DropTrailingEmpty(SplitAll(s, sep))
  }

  /** The pieces are separator-free and joining them restores the string. */
  lemma {:induction false} JoinSplitAll(s: string, sep: char)
    ensures forall i :: 0 <= i < |SplitAll(s, sep)| ==> sep !in SplitAll(s, sep)[i]
    ensures Join(SplitAll(s, sep), sep) == s
    decreases |s|
  {
    if s != [] {
      JoinSplitAll(s[1..], sep);
      var rest := SplitAll(s[1..], sep);
      var r := SplitAll(s, sep);
      if s[0] == sep {
        assert r == [[]] + rest;
        assert Join(r, sep) == [] + [sep] + Join(rest, sep);
        assert [] + [sep] + s[1..] == s;
      } else {
        assert r == [[s[0]] + rest[0]] + rest[1..];
        assert r[0] == [s[0]] + rest[0];
        forall i | 0 <= i < |r| ensures sep !in r[i] {
          if i > 0 {
            assert r[i] == rest[i];
          }
        }
        if |rest| == 1 {
          assert Join(r, sep) == [s[0]] + rest[0];
        } else {
          assert Join(rest, sep) == rest[0] + [sep] + Join(rest[1..], sep);
          assert r[1..] == rest[1..];
          assert Join(r, sep) == [s[0]] + rest[0] + [sep] + Join(rest[1..], sep);
        }
        assert [s[0]] + s[1..] == s;
      }
    }
  }

  /** String.split yields separator-free pieces. */
  lemma SplitFree(s: string, sep: char)
    ensures forall i :: 0 <= i < |Split(s, sep)| ==> sep !in Split(s, sep)[i]
  {
    JoinSplitAll(s, sep);
  }

  /** Splitting a join of separator-free pieces gives the pieces back. */
  lemma {:induction false} SplitAllJoin(parts: seq<string>, sep: char)
    requires |parts| >= 1
    requires forall i :: 0 <= i < |parts| ==> sep !in parts[i]
    ensures SplitAll(Join(parts, sep), sep) == parts
    decreases |parts|
  {
    if |parts| == 1 {
      SplitAllFree(parts[0], [], sep);
    } else {
      SplitAllJoin(parts[1..], sep);
      SplitAllFree(parts[0], Join(parts[1..], sep), sep);
    }
  }

  /** A separator-free prefix extends the first piece; a following separator starts the next. */
  lemma {:induction false} SplitAllFree(p: string, rest: string, sep: char)
    requires sep !in p
    ensures rest == [] ==> SplitAll(p, sep) == [p]
    ensures SplitAll(p + [sep] + rest, sep) == [p] + SplitAll(rest, sep)
    decreases |p|
  {
    if p == [] {
      assert ([] + [sep] + rest)[1..] == rest;
    } else {
      SplitAllFree(p[1..], rest, sep);
      assert (p + [sep] + rest)[1..] == p[1..] + [sep] + rest;
      assert [p[0]] + p[1..] == p;
    }
  }

  /** Splitting a join of pieces followed by a separator and more text yields the pieces and
      then the pieces of the rest. */
  lemma {:induction false} SplitAllAppend(parts: seq<string>, rest: string, sep: char)
    requires |parts| >= 1
    requires forall i :: 0 <= i < |parts| ==> sep !in parts[i]
    ensures SplitAll(Join(parts, sep) + [sep] + rest, sep) == parts + SplitAll(rest, sep)
    decreases |parts|
  {
    if |parts| == 1 {
      SplitAllFree(parts[0], rest, sep);
    } else {
      var tail := Join(parts[1..], sep) + [sep] + rest;
      assert Join(parts, sep) + [sep] + rest == parts[0] + [sep] + tail by {
        assert Join(parts, sep) == parts[0] + [sep] + Join(parts[1..], sep);
      }
      assert SplitAll(parts[0] + [sep] + tail, sep) == [parts[0]] + SplitAll(tail, sep) by {
        SplitAllFree(parts[0], tail, sep);
      }
      assert SplitAll(tail, sep) == parts[1..] + SplitAll(rest, sep) by {
        SplitAllAppend(parts[1..], rest, sep);
      }
      assert [parts[0]] + (parts[1..] + SplitAll(rest, sep)) == parts + SplitAll(rest, sep) by {
        assert [parts[0]] + parts[1..] == parts;
      }
    }
  }

  /** A run of `n` separators has `n + 1` empty pieces. */
  lemma {:induction false} SplitAllSeparators(s: string, sep: char)
    requires forall i :: 0 <= i < |s| ==> s[i] == sep
    ensures |SplitAll(s, sep)| == |s| + 1
    ensures forall i :: 0 <= i < |s| + 1 ==> SplitAll(s, sep)[i] == []
    decreases |s|
  {
    if s != [] {
      SplitAllSeparators(s[1..], sep);
      SplitAllFree([], s[1..], sep);
      assert [] + [sep] + s[1..] == s;
    }
  }

  /** Trailing removal never reaches past a non-empty piece. */
  lemma DropTrailingEmptyKeeps(parts: seq<string>, more: seq<string>)
    requires parts != [] && parts[|parts| - 1] != []
    ensures |DropTrailingEmpty(parts + more)| >= |parts|
    ensures DropTrailingEmpty(parts + more)[..|parts|] == parts
    ensures (forall i :: 0 <= i < |more| ==> more[i] == []) ==> DropTrailingEmpty(parts + more) == parts
  {
    var r := DropTrailingEmpty(parts + more);
    assert (parts + more)[|parts| - 1] != [];
    assert r[..|parts|] == (parts + more)[..|parts|];
  }

  /** Separators after a join add only empty pieces, which String.split drops. */
  lemma SplitTrailingSeparators(parts: seq<string>, seps: string, sep: char)
    requires |parts| >= 1 && parts[|parts| - 1] != []
    requires forall i :: 0 <= i < |parts| ==> sep !in parts[i]
    requires seps != [] && forall i :: 0 <= i < |seps| ==> seps[i] == sep
    ensures Split(Join(parts, sep) + seps, sep) == parts
  {
    var text := Join(parts, sep) + seps;
    var more := SplitAll(seps[1..], sep);
    assert text == Join(parts, sep) + [sep] + seps[1..] by {
      assert seps == [sep] + seps[1..];
    }
    assert SplitAll(text, sep) == parts + more by {
      SplitAllAppend(parts, seps[1..], sep);
    }
    assert sep in text by {
      assert text[|Join(parts, sep)|] == sep;
    }
    SplitAllSeparators(seps[1..], sep);
    DropTrailingEmptyKeeps(parts, more);
  }

  /** Whatever follows a join and a separator only adds pieces after the joined ones. */
  lemma SplitSuffix(parts: seq<string>, rest: string, sep: char)
    requires |parts| >= 1 && parts[|parts| - 1] != []
    requires forall i :: 0 <= i < |parts| ==> sep !in parts[i]
    ensures var r := Split(Join(parts, sep) + [sep] + rest, sep);
      |r| >= |parts| && r[..|parts|] == parts
  {
    var text := Join(parts, sep) + [sep] + rest;
    assert SplitAll(text, sep) == parts + SplitAll(rest, sep) by {
      SplitAllAppend(parts, rest, sep);
    }
    assert sep in text by {
      assert text[|Join(parts, sep)|] == sep;
    }
    DropTrailingEmptyKeeps(parts, SplitAll(rest, sep));
  }

  /** Split of a join of one or more separator-free pieces whose last piece is non-empty. */
  lemma SplitJoin(parts: seq<string>, sep: char)
    requires |parts| >= 1 && parts[|parts| - 1] != []
    requires forall i :: 0 <= i < |parts| ==> sep !in parts[i]
    ensures Split(Join(parts, sep), sep) == parts
  {
    SplitAllJoin(parts, sep);
    if |parts| > 1 {
      assert Join(parts, sep) == parts[0] + [sep] + Join(parts[1..], sep);
      assert Join(parts, sep)[|parts[0]|] == sep;
    }
  }

  // ---------------------------------------------------------------------------
  // Decimal digits

  predicate IsDigit(c: char) {
    '0' <= c <= '9'
  }

  predicate AllDigits(s: string) {
    forall i :: 0 <= i < |s| ==> IsDigit(s[i])
  }

  function DigitValue(c: char): (r: nat)
    requires IsDigit(c)
    ensures r < 10
  {
    (c as int) - ('0' as int)
  }

  function DigitChar(d: nat): (c: char)
    requires d < 10
    ensures IsDigit(c) && DigitValue(c) == d
  {
    (('0' as int) + d) as char
  }

  /** The value of a string of decimal digits, most significant first. */
  function DigitsValue(s: string): nat
    requires AllDigits(s)
    decreases |s|
  {
    if s == [] then 0 else DigitsValue(s[..|s| - 1]) * 10 + DigitValue(s[|s| - 1])
  }

  /** The shortest decimal spelling of `n`. */
  function NatToString(n: nat): (r: string)
    ensures r != [] && AllDigits(r)
    decreases n
  {
    if n < 10 then [DigitChar(n)] else NatToString(n / 10) + [DigitChar(n % 10)]
  }

  /** A canonical spelling has no superfluous leading zero. */
  predicate CanonicalDigits(s: string) {
    s != [] && AllDigits(s) && (s[0] == '0' ==> |s| == 1)
  }

  lemma {:induction false} NatToStringValue(n: nat)
    ensures DigitsValue(NatToString(n)) == n
    ensures CanonicalDigits(NatToString(n))
    decreases n
  {
    var s := NatToString(n);
    if n >= 10 {
      NatToStringValue(n / 10);
      assert s[..|s| - 1] == NatToString(n / 10);
    }
  }

  lemma {:induction false} CanonicalDigitsValue(s: string)
    requires CanonicalDigits(s)
    ensures NatToString(DigitsValue(s)) == s
    ensures |s| > 1 ==> DigitsValue(s) >= 10
    decreases |s|
  {
    if |s| > 1 {
      var init := s[..|s| - 1];
      assert init[0] == s[0];
      CanonicalDigitsValue(init);
      if |init| == 1 {
        assert DigitsValue(init[..0]) == 0;
        assert DigitsValue(init) >= 1;
      }
      assert init + [s[|s| - 1]] == s;
    }
  }

  // ---------------------------------------------------------------------------
  // Long.parseLong and Long.toString

  /** Long.parseLong(s) in radix 10: an optional '-' or '+', then at least one decimal digit,
      with a value inside the `long` range; anything else throws (`None`). */
  function ParseLong(s: string): (r: Option<Long>)
    ensures r.Some? ==> s != []
    ensures r.Some? && s[0] != '-' ==> r.value >= 0
  {
    if s == [] then None
    else
      var signed := s[0] == '-' || s[0] == '+';
      var digits := if signed then s[1..] else s;
      if digits == [] || !AllDigits(digits) then None
      else
        var magnitude: int := DigitsValue(digits);
        var v := if s[0] == '-' then -magnitude else magnitude;
        if LONG_MIN <= v <= LONG_MAX then Some(v) else None
  }

  /** A leading zero does not change the value of a digit string. */
  lemma {:induction false} LeadingZeroValue(d: string)
    requires AllDigits(d)
    ensures AllDigits(['0'] + d) && DigitsValue(['0'] + d) == DigitsValue(d)
    decreases |d|
  {
    var z := ['0'] + d;
    assert AllDigits(z) by {
      forall i | 0 <= i < |z| ensures IsDigit(z[i]) {
        if i > 0 {
          assert z[i] == d[i - 1];
        }
      }
    }
    if d != [] {
      var init := d[..|d| - 1];
      assert AllDigits(init) by {
        forall i | 0 <= i < |init| ensures IsDigit(init[i]) {
          assert init[i] == d[i];
        }
      }
      LeadingZeroValue(init);
      assert z[..|z| - 1] == ['0'] + init;
    }
  }

  /** Long.parseLong ignores leading zeros: "01" and "1" are both 1. */
  lemma ParseLongLeadingZero(d: string)
    requires d != [] && AllDigits(d)
    ensures ParseLong(['0'] + d) == ParseLong(d)
  {
    LeadingZeroValue(d);
    assert d[0] != '-' && d[0] != '+';
    assert (['0'] + d)[0] == '0';
  }

  /** Long.toString(n): a '-' for negative values, then the shortest decimal spelling. */
  function LongToString(n: Long): (r: string)
    ensures r != [] && '.' !in r && Trimmed(r)
  {
    var r := if n < 0 then ['-'] + NatToString(-(n as int)) else NatToString(n);
    assert forall i :: 0 <= i < |r| ==> r[i] == '-' || IsDigit(r[i]);
    r
  }

  /** Long.parseLong reads back every string Long.toString writes. */
  lemma ParseLongToString(n: Long)
    ensures ParseLong(LongToString(n)) == Some(n)
  {
    if n < 0 {
      var d := NatToString(-(n as int));
      NatToStringValue(-(n as int));
      ParseLongNegative(d);
    } else {
      NatToStringValue(n);
      ParseLongUnsigned(NatToString(n));
    }
  }

  /** A '-' and digits in range give the negated value. */
  lemma ParseLongNegative(d: string)
    requires d != [] && AllDigits(d) && LONG_MIN <= -(DigitsValue(d) as int)
    ensures ParseLong(['-'] + d) == Some(-(DigitsValue(d) as int))
  {
    var s := ['-'] + d;
    assert s[0] == '-' && s[1..] == d;
  }

  /** Digits alone in range give their value. */
  lemma ParseLongUnsigned(d: string)
    requires d != [] && AllDigits(d) && DigitsValue(d) <= LONG_MAX
    ensures ParseLong(d) == Some(DigitsValue(d))
  {
    assert IsDigit(d[0]);
  }

  /** Long.toString reproduces a canonical unsigned decimal that Long.parseLong accepts. */
  lemma ToStringParseLong(s: string)
    requires CanonicalDigits(s) && DigitsValue(s) <= LONG_MAX
    ensures ParseLong(s).Some? && LongToString(ParseLong(s).value) == s
  {
    CanonicalDigitsValue(s);
  }
}

=== FILE: manifest_list.dfy ===
/** The list-of-clauses syntax of OSGi manifest headers such as Export-Package
    (OSGi Core, section 3.2.4 "Common Header Syntax"), as ManifestBundlesListEntry
    scans and prints it. ',' separates clauses, ';' separates a clause's
    identifier from its attributes, and '"' opens a quoted span in which ';' and
    ',' are ordinary characters; the next '"' closes it, and there is no escape.
    The scanner is lenient: it never fails. */
module ManifestList {
  import opened Wrappers
  import opened JavaLang

  /** One clause: its trimmed identifier (a bundle or package name) and its attributes,
      untrimmed and in input order. */
  datatype Entry = Entry(bundle: string, attributes: seq<string>)

  /** A clause the parser can produce: its identifier is trimmed and not empty. */
  predicate Named(e: Entry) {
    e.bundle != [] && Trimmed(e.bundle)
  }

  const QUOTE: char := '"'
  const SEMICOLON: char := ';'
  const COMMA: char := ','

  /** The stop set of every top-level read. */
  const STOP_CHARS: string := [SEMICOLON, COMMA]

  // ---------------------------------------------------------------------------
  // readUntil

  /** What one readUntil call does: the text it appends to the buffer, the cursor it leaves
      behind, and the int it returns (-1 when it read nothing, otherwise the code of the last
      char its own loop read). */
  datatype Read = Read(text: string, pos: nat, last: int)

  /** The loop of readUntil from cursor `pos`, where `ch` is the value of the local `ch` so
      far. A stop char ends the loop and is consumed but not copied. A '"' that is not a stop
      char is copied and starts a nested read whose only stop char is '"'; a closing '"' is
      copied unless the nested read read nothing. */
  function ReadLoop(s: string, pos: nat, stops: string, ch: int): (r: Read)
    requires pos <= |s|
    ensures pos <= r.pos <= |s|
    ensures pos < |s| ==> pos < r.pos && r.last >= 0
    ensures pos == |s| ==> r == Read([], pos, ch)
    decreases |s| - pos
  {
    if pos == |s| then Read([], pos, ch)
    else
      var c := s[pos];
      if c in stops then
        Read([], pos + 1, c as int)
      else if c == QUOTE then
        var inner := ReadLoop(s, pos + 1, [QUOTE], -1);
        var closing := if inner.last != -1 then [QUOTE] else [];
        var rest := ReadLoop(s, inner.pos, stops, c as int);
        Read([c] + inner.text + closing + rest.text, rest.pos, rest.last)
      else
        var rest := ReadLoop(s, pos + 1, stops, c as int);
        Read([c] + rest.text, rest.pos, rest.last)
  }

  /** readUntil(string, position, buffer, stopChars). It returns -1 exactly when the cursor
      was already at the end, and otherwise always moves the cursor. */
  function ReadUntil(s: string, pos: nat, stops: string): (r: Read)
    requires pos <= |s|
    ensures r.last == -1 <==> pos == |s|
    ensures pos <= r.pos <= |s| && (pos < |s| ==> pos < r.pos)
  {
    ReadLoop(s, pos, stops, -1)
  }

  /** The read ended on ';' or ','. */
  predicate Stopped(r: Read) {
    r.last == SEMICOLON as int || r.last == COMMA as int
  }

  // ---------------------------------------------------------------------------
  // parse

  /** The attribute loop of the private parse, entered after a ';': each read yields one
      attribute, empty ones included, and the loop goes on while a read ends on ';'. */
  function ReadAttributes(s: string, pos: nat): (r: (seq<string>, nat))
    requires pos <= |s|
    ensures |r.0| >= 1
    ensures pos <= r.1 <= |s|
    decreases |s| - pos
  {
    var a := ReadUntil(s, pos, STOP_CHARS);
    if a.last == SEMICOLON as int then
      var rest := ReadAttributes(s, a.pos);
      ([a.text] + rest.0, rest.1)
    else
      ([a.text], a.pos)
  }

  /** The private parse(String, MutableReference): reads one clause from `pos` and returns it,
      or `None` when its trimmed identifier is empty, together with the cursor after it. The
      identifier stored is the text of the first read with String.trim applied. */
  function ParseEntryAt(s: string, pos: nat): (r: (Option<Entry>, nat))
    requires pos <= |s|
    ensures pos <= r.1 <= |s|
    ensures pos < |s| ==> pos < r.1
    ensures r.0.Some? ==> Named(r.0.value)
    ensures r.0.Some? ==> r.0.value.bundle == Trim(ReadUntil(s, pos, STOP_CHARS).text)
  {
    var id := ReadUntil(s, pos, STOP_CHARS);
    if id.last == -1 then
      (None, id.pos)
    else
      var (attributes, next) := if id.last == SEMICOLON as int then ReadAttributes(s, id.pos) else ([], id.pos);
      var bundle := Trim(id.text);
      if |bundle| > 0 then (Some(Entry(bundle, attributes)), next) else (None, next)
  }

  /** The loop of the public parse from cursor `pos`: each turn consumes at least one char,
      so there are no more clauses than chars left. */
  function ParseFrom(s: string, pos: nat): (r: seq<Entry>)
    requires pos <= |s|
    ensures forall i :: 0 <= i < |r| ==> Named(r[i])
    ensures |r| <= |s| - pos
    decreases |s| - pos
  {
    if pos == |s| then []
    else
      var step := ParseEntryAt(s, pos);
      var rest := ParseFrom(s, step.1);
      if step.0.Some? then Cons(step.0.value, rest) else rest
  }

  /** A named clause in front of named clauses. */
  function Cons(e: Entry, rest: seq<Entry>): (r: seq<Entry>)
    requires Named(e) && forall i :: 0 <= i < |rest| ==> Named(rest[i])
    ensures |r| == |rest| + 1 && forall i :: 0 <= i < |r| ==> Named(r[i])
  {
    [e] + rest
  }

  /** ManifestBundlesListEntry.parse: every clause of `s` whose trimmed identifier is not empty,
      in order. The empty string has no clauses. */
  function Parse(s: string): (r: seq<Entry>)
    ensures s == [] ==> r == []
    ensures forall i :: 0 <= i < |r| ==> Named(r[i])
  {
    ParseFrom(s, 0)
  }

  // ---------------------------------------------------------------------------
  // toString

  /** Each attribute preceded by ';'. */
  function AttributesText(attributes: seq<string>): string
    decreases |attributes|
  {
    if attributes == [] then [] else [SEMICOLON] + attributes[0] + AttributesText(attributes[1..])
  }

  /** ManifestBundlesListEntry.toString. */
  function ToString(e: Entry): string {
    e.bundle + AttributesText(e.attributes)
  }

  /** The clauses' toStrings joined with ',', as the Export-Package rewrite writes them. */
  function Serialize(es: seq<Entry>): string
    decreases |es|
  {
    if es == [] then []
    else if |es| == 1 then ToString(es[0])
    else ToString(es[0]) + [COMMA] + Serialize(es[1..])
  }

  /** toString puts the identifier and the attributes, in order, with ';' between neighbours
      and nothing before or after: String.join(";", bundle, attributes...). */
  lemma ToStringJoin(e: Entry)
    ensures ToString(e) == Join([e.bundle] + e.attributes, SEMICOLON)
  {
    AttributesJoin(e.bundle, e.attributes);
  }

  lemma {:induction false} AttributesJoin(first: string, attributes: seq<string>)
    ensures first + AttributesText(attributes) == Join([first] + attributes, SEMICOLON)
    decreases |attributes|
  {
    if attributes != [] {
      AttributesJoin(attributes[0], attributes[1..]);
      assert ([first] + attributes)[1..] == [attributes[0]] + attributes[1..] == attributes;
    }
  }

  /** The toString of each clause. */
  function ClauseTexts(es: seq<Entry>): (r: seq<string>)
    ensures |r| == |es| && forall i :: 0 <= i < |es| ==> r[i] == ToString(es[i])
  {
    seq(|es|, i requires 0 <= i < |es| => ToString(es[i]))
  }

  /** The serialized header is the clauses' toStrings with ',' between neighbours and no
      leading or trailing ',': String.join(",", toStrings). */
  lemma {:induction false} SerializeJoin(es: seq<Entry>)
    ensures Serialize(es) == Join(ClauseTexts(es), COMMA)
    decreases |es|
  {
    if |es| > 1 {
      SerializeJoin(es[1..]);
      assert ClauseTexts(es)[1..] == ClauseTexts(es[1..]);
    }
  }

  // ---------------------------------------------------------------------------
  // What one top-level read can produce

  /** Text a read with stop chars ";," can append: no ';' or ',' outside quotes, and every
      quoted span closed by '"'. With `atEnd` (the read ran into the end of the input) the
      text may also end in a lone opening '"': no closing quote is appended when the opening
      one was the last char of the input. */
  predicate NormalText(t: string, atEnd: bool)
    decreases |t|
  {
    if t == [] then true
    else if t[0] == SEMICOLON || t[0] == COMMA then false
    else if t[0] == QUOTE then (atEnd && |t| == 1) || QuotedText(t[1..], atEnd)
    else NormalText(t[1..], atEnd)
  }

  /** The rest of a quoted span: quote-free text, the closing '"', then `NormalText`. */
  predicate QuotedText(t: string, atEnd: bool)
    decreases |t|
  {
    if t == [] then false
    else if t[0] == QUOTE then NormalText(t[1..], atEnd)
    else QuotedText(t[1..], atEnd)
  }

  /** A clause that reads back as itself: a non-empty trimmed identifier and readable texts,
      where only the clause's final text may stay open, and only if the clause is `last`. */
  predicate ClauseOk(e: Entry, last: bool) {
    && Named(e)
    && NormalText(e.bundle, last && e.attributes == [])
    && AttributesOk(e.attributes, last)
  }

  /** Attributes that read back as themselves: all closed, except that the final one may stay
      open when nothing follows it. */
  predicate AttributesOk(attributes: seq<string>, last: bool) {
    forall i :: 0 <= i < |attributes| ==> NormalText(attributes[i], last && i == |attributes| - 1)
  }

  predicate ClausesOk(es: seq<Entry>) {
    forall i :: 0 <= i < |es| ==> ClauseOk(es[i], i == |es| - 1)
  }
}

=== FILE: manifest_list_examples.dfy ===
/** Worked inputs for ManifestBundlesListEntry.parse, each derived from the general lemmas. */
module ManifestListExamples {
  import opened JavaLang
  import opened ManifestList
  import opened ManifestListLemmas
  import opened Wrappers

  /** The empty header has no clauses. */
  lemma ParseEmpty()
    ensures Parse("") == []
  {
  }

  /** Parses `text` by recognising it as the printed form of `es`. */
  lemma ParsePrinted(text: string, es: seq<Entry>)
    requires Serialize(es) == text && ClausesOk(es)
    ensures Parse(text) == es
  {
    ParseSerialize(es);
  }

  /** A comma inside a quoted attribute value does not end the clause. */
  lemma ParseQuotedComma()
    ensures Parse("foo;version=\"1.0,2\";bar,baz")
         == [Entry("foo", ["version=\"1.0,2\"", "bar"]), Entry("baz", [])]
  {
    var es := [Entry("foo", ["version=\"1.0,2\"", "bar"]), Entry("baz", [])];
    QuotedCommaPrinted(es);
    QuotedCommaOk(es);
    ParsePrinted("foo;version=\"1.0,2\";bar,baz", es);
  }

  lemma QuotedCommaPrinted(es: seq<Entry>)
    requires es == [Entry("foo", ["version=\"1.0,2\"", "bar"]), Entry("baz", [])]
    ensures Serialize(es) == "foo;version=\"1.0,2\";bar,baz"
  {
    assert ToString(es[0]) == "foo;version=\"1.0,2\";bar";
  }

  lemma QuotedCommaOk(es: seq<Entry>)
    requires es == [Entry("foo", ["version=\"1.0,2\"", "bar"]), Entry("baz", [])]
    ensures ClausesOk(es)
  {
    QuotedCommaFirstOk(es[0]);
    PlainNamed("baz", true);
  }

  lemma QuotedCommaFirstOk(e: Entry)
    requires e == Entry("foo", ["version=\"1.0,2\"", "bar"])
    ensures ClauseOk(e, false)
  {
    VersionValueOk();
    PlainNamed("bar", false);
    PlainNamed("foo", false);
    TwoAttributesOk("foo", "version=\"1.0,2\"", "bar");
  }

  lemma TwoAttributesOk(w: string, a: string, b: string)
    requires Named(Entry(w, [])) && NormalText(w, false) && NormalText(a, false) && NormalText(b, false)
    ensures ClauseOk(Entry(w, [a, b]), false)
  {
  }

  /** A short plain word is a readable, trimmed identifier. */
  lemma PlainNamed(w: string, atEnd: bool)
    requires |w| == 3 && 'a' <= w[0] <= 'z' && 'a' <= w[1] <= 'z' && 'a' <= w[2] <= 'z'
    ensures NormalText(w, atEnd) && Named(Entry(w, []))
  {
    assert Plain(w) by {
      forall c | c in w ensures c != QUOTE && c != SEMICOLON && c != COMMA {
        var i :| 0 <= i < |w| && w[i] == c;
      }
    }
    NormalPlainPrefix(w, [], atEnd);
    assert w + [] == w;
  }

  lemma VersionValueOk()
    ensures NormalText("version=\"1.0,2\"", false)
  {
    assert Plain("version=");
    NormalQuotedValue("version=", "1.0,2", false);
    assert "version=" + [QUOTE] + "1.0,2" + [QUOTE] == "version=\"1.0,2\"";
  }

  /** A dangling ';' yields an empty attribute. */
  lemma ParseDanglingSemicolon()
    ensures Parse("foo;") == [Entry("foo", [""])]
  {
    var es := [Entry("foo", [""])];
    assert Serialize(es) == "foo;";
    assert ClausesOk(es) by {
      assert ClauseOk(es[0], true);
    }
    ParsePrinted("foo;", es);
  }

  /** An empty attribute before a ',' belongs to the clause it ends. */
  lemma ParseEmptyAttributeBeforeComma()
    ensures Parse("foo;,bar") == [Entry("foo", [""]), Entry("bar", [])]
  {
    var es := [Entry("foo", [""]), Entry("bar", [])];
    assert Serialize(es) == "foo;,bar";
    assert ClausesOk(es) by {
      assert ClauseOk(es[0], false) && ClauseOk(es[1], true);
    }
    ParsePrinted("foo;,bar", es);
  }

  /** Clauses with an empty identifier are dropped, and so is the empty text after a
      trailing ',': `,,foo,` has the one clause foo. */
  lemma ParseEmptyClauses(w: string)
    requires Named(Entry(w, [])) && Plain(w)
    ensures Parse([COMMA, COMMA] + w + [COMMA]) == [Entry(w, [])]
  {
    var u := [COMMA, COMMA] + w + [COMMA];
    var tail := w + [COMMA];
    assert u == [COMMA] + ([COMMA] + tail);
    assert u[1..] == [COMMA] + tail;
    assert u[2..] == tail;
    BlankPrefix(u, 0, [COMMA] + tail);
    BlankPrefix(u, 1, tail);
    var e := Entry(w, []);
    assert ToString(e) == w by {
      assert AttributesText([]) == [];
    }
    assert ClauseOk(e, false) by {
      NormalPlainPrefix(w, [], false);
      assert w + [] == w;
    }
    RereadClause(u, 2, e, [COMMA]);
    ParseFromStep(u, 2, e, |u|);
    ParseFromEnd(u);
  }

  lemma ParseCommasFoo()
    ensures Parse(",,foo,") == [Entry("foo", [])]
  {
    assert Plain("foo") && Named(Entry("foo", []));
    ParseEmptyClauses("foo");
    assert [COMMA, COMMA] + "foo" + [COMMA] == ",,foo,";
  }

  /** A ',' at `p` ends a clause with an empty identifier, which the parse drops. */
  lemma BlankPrefix(u: string, p: nat, rest: string)
    requires p < |u| && u[p..] == [COMMA] + rest
    ensures ParseFrom(u, p) == ParseFrom(u, p + 1)
  {
    var blank := Entry([], []);
    assert ToString(blank) == [] by {
      assert AttributesText([]) == [];
    }
    assert u[p..] == ToString(blank) + ([COMMA] + rest);
    ParseBlankClause(u, p, blank, [COMMA] + rest);
  }

  /** The usual comma-space spelling: the blank after ',' is trimmed off the identifier, so
      `a, b` has the clauses a and b. */
  lemma ParseCommaSpaceAB()
    ensures Parse("a, b") == [Entry("a", []), Entry("b", [])]
    ensures ParseEntryAt("a, b", 2) == (Some(Entry("b", [])), 4)
  {
    assert Plain("a") && Named(Entry("a", []));
    assert Plain("b") && Named(Entry("b", []));
    ParseCommaSpace("a", "b");
    assert "a" + [COMMA, ' '] + "b" == "a, b";
    assert "a, b"[2..] == ToString(Padded(Entry("b", []), " ", "")) + [] by {
      assert AttributesText([]) == [];
    }
    assert ClauseOk(Entry("b", []), true) by {
      NormalPlainPrefix("b", [], true);
      assert "b" + [] == "b";
    }
    RereadPaddedClause("a, b", 2, Entry("b", []), " ", "", []);
  }

  /** Two plain identifiers joined by ", " parse as two clauses with the blank trimmed off. */
  lemma ParseCommaSpace(v: string, w: string)
    requires Named(Entry(v, [])) && Plain(v) && Named(Entry(w, [])) && Plain(w)
    ensures Parse(v + [COMMA, ' '] + w) == [Entry(v, []), Entry(w, [])]
  {
    var es := [Entry(v, []), Entry(w, [])];
    var xs := ["", " "];
    var ys := ["", ""];
    NormalPlainPrefix(v, [], false);
    NormalPlainPrefix(w, [], true);
    assert v + [] == v && w + [] == w;
    assert PaddingOk(es[0], xs[0], ys[0], false);
    assert PaddingOk(es[1], xs[1], ys[1], true);
    assert PaddingsOk(es, xs, ys);
    var ps := PadAll(es, xs, ys);
    assert ToString(ps[0]) == v && ToString(ps[1]) == [' '] + w by {
      assert AttributesText([]) == [];
      assert "" + v + "" == v && " " + w + "" == [' '] + w;
    }
    assert Serialize(ps) == v + [COMMA, ' '] + w by {
      assert ps[1..] == [ps[1]];
    }
    ParsePadded(es, xs, ys);
  }

  /** An unterminated quote swallows the rest of the header, ',' included, and the attribute
      comes back with a closing '"'. */
  lemma ParseUnterminatedQuote()
    ensures Parse("foo;a\"b,c") == [Entry("foo", ["a\"b,c\""])]
  {
    assert Plain("foo") && Plain("a");
    assert Named(Entry("foo", []));
    ParseOneUnterminated("foo", "a", "b,c");
    assert "foo" + [SEMICOLON] + "a" + [QUOTE] + "b,c" == "foo;a\"b,c";
    assert Unterminated("a", "b,c") == "a\"b,c\"";
  }

  /** A '"' that is the header's last char opens a quote that receives no closing '"'. */
  lemma ParseQuoteAtEnd()
    ensures Parse("foo;a\"") == [Entry("foo", ["a\""])]
  {
    assert Plain("foo") && Plain("a");
    assert Named(Entry("foo", []));
    ParseOneUnterminated("foo", "a", "");
    assert "foo" + [SEMICOLON] + "a" + [QUOTE] + "" == "foo;a\"";
    assert Unterminated("a", "") == "a\"";
  }

  /** `ParseUnterminated` for a header of one clause with one attribute. */
  lemma ParseOneUnterminated(b: string, t: string, q: string)
    requires Named(Entry(b, [])) && Plain(b) && Plain(t) && QUOTE !in q
    ensures Parse(b + [SEMICOLON] + t + [QUOTE] + q) == [Entry(b, [Unterminated(t, q)])]
  {
    var e := Entry(b, []);
    var none: seq<Entry> := [];
    NormalPlainPrefix(b, [], false);
    NormalPlainPrefix(t, [], false);
    assert b + [] == b && t + [] == t;
    assert Serialize(none + [e]) == b by {
      assert none + [e] == [e];
      assert AttributesText([]) == [];
    }
    ParseUnterminated(none, e, t, q);
    assert e.attributes + [Unterminated(t, q)] == [Unterminated(t, q)];
    assert none + [Entry(b, [Unterminated(t, q)])] == [Entry(b, [Unterminated(t, q)])];
  }
}

=== FILE: manifest_list_lemmas.dfy ===
/** What ManifestBundlesListEntry's scanner reads, and why printing the clauses it
    produced and scanning the result again gives the same clauses. */
module ManifestListLemmas {
  import opened Wrappers
  import opened JavaLang
  import opened ManifestList

  // ---------------------------------------------------------------------------
  // The grammar of read texts

  /** A quoted span followed by normal text. */
  lemma {:induction false} QuotedClose(q: string, t: string, atEnd: bool)
    requires QUOTE !in q
    ensures QuotedText(q + [QUOTE] + t, atEnd) == NormalText(t, atEnd)
    decreases |q|
  {
    if q == [] {
      assert ([] + [QUOTE] + t)[1..] == t;
    } else {
      QuotedClose(q[1..], t, atEnd);
      assert (q + [QUOTE] + t)[1..] == q[1..] + [QUOTE] + t;
    }
  }

  /** Text free of '"', ';' and ','. */
  predicate Plain(p: string) {
    forall c :: c in p ==> c != QUOTE && c != SEMICOLON && c != COMMA
  }

  /** Plain text in front of a text changes nothing about whether it can be read. */
  lemma {:induction false} NormalPlainPrefix(p: string, t: string, atEnd: bool)
    requires Plain(p)
    ensures NormalText(p + t, atEnd) == NormalText(t, atEnd)
    decreases |p|
  {
    if p == [] {
      assert p + t == t;
    } else {
      assert p[0] in p;
      assert (p + t)[0] == p[0];
      assert (p + t)[1..] == p[1..] + t;
      assert Plain(p[1..]) by {
        forall c | c in p[1..] ensures c in p {}
      }
      NormalPlainPrefix(p[1..], t, atEnd);
    }
  }

  /** A plain key followed by a quoted value, as in `version="1.0"`, is readable anywhere. */
  lemma NormalQuotedValue(p: string, q: string, atEnd: bool)
    requires Plain(p) && QUOTE !in q
    ensures NormalText(p + [QUOTE] + q + [QUOTE], atEnd)
  {
    var t := [QUOTE] + q + [QUOTE];
    assert p + [QUOTE] + q + [QUOTE] == p + t;
    NormalPlainPrefix(p, t, atEnd);
    QuotedClose(q, [], atEnd);
    assert t[1..] == q + [QUOTE] + [];
  }

  /** Where the quoted span of a `QuotedText` ends. */
  lemma {:induction false} QuotedSplit(x: string, atEnd: bool) returns (j: nat)
    requires QuotedText(x, atEnd)
    ensures j < |x| && x[j] == QUOTE && QUOTE !in x[..j] && NormalText(x[j + 1..], atEnd)
    decreases |x|
  {
    if x[0] == QUOTE {
      j := 0;
    } else {
      var j' := QuotedSplit(x[1..], atEnd);
      j := j' + 1;
      assert x[..j] == [x[0]] + x[1..][..j'];
      assert x[j + 1..] == x[1..][j' + 1..];
    }
  }

  /** A closed text is also acceptable at the end of the input. */
  lemma {:induction false} NormalTextAtEnd(t: string)
    requires NormalText(t, false)
    ensures NormalText(t, true)
    decreases |t|
  {
    if t != [] {
      if t[0] == QUOTE {
        QuotedTextAtEnd(t[1..]);
      } else {
        NormalTextAtEnd(t[1..]);
      }
    }
  }

  lemma {:induction false} QuotedTextAtEnd(t: string)
    requires QuotedText(t, false)
    ensures QuotedText(t, true)
    decreases |t|
  {
    if t[0] == QUOTE {
      NormalTextAtEnd(t[1..]);
    } else {
      QuotedTextAtEnd(t[1..]);
    }
  }

  /** A text whose last char is not a quote can lose that char: the char was read in normal mode. */
  lemma {:induction false} NormalDropLast(t: string, atEnd: bool)
    requires NormalText(t, atEnd) && t != [] && t[|t| - 1] != QUOTE
    ensures NormalText(t[..|t| - 1], atEnd)
    decreases |t|
  {
    if |t| > 1 {
      assert t[..|t| - 1][1..] == t[1..][..|t| - 2];
      if t[0] == QUOTE {
        QuotedDropLast(t[1..], atEnd);
      } else {
        NormalDropLast(t[1..], atEnd);
      }
    }
  }

  lemma {:induction false} QuotedDropLast(x: string, atEnd: bool)
    requires QuotedText(x, atEnd) && x[|x| - 1] != QUOTE
    ensures QuotedText(x[..|x| - 1], atEnd)
    decreases |x|
  {
    assert |x| > 1;
    assert x[..|x| - 1][1..] == x[1..][..|x| - 2];
    if x[0] == QUOTE {
      NormalDropLast(x[1..], atEnd);
    } else {
      QuotedDropLast(x[1..], atEnd);
    }
  }

  /** Trimming keeps a read text readable: the trimmed chars all lie outside quotes. */
  lemma {:induction false} NormalTrimStart(t: string, atEnd: bool)
    requires NormalText(t, atEnd)
    ensures NormalText(TrimStart(t), atEnd)
    decreases |t|
  {
    if t != [] && Trimmable(t[0]) {
      NormalTrimStart(t[1..], atEnd);
    }
  }

  lemma {:induction false} NormalTrimEnd(t: string, atEnd: bool)
    requires NormalText(t, atEnd)
    ensures NormalText(TrimEnd(t), atEnd)
    decreases |t|
  {
    if t != [] && Trimmable(t[|t| - 1]) {
      NormalDropLast(t, atEnd);
      NormalTrimEnd(t[..|t| - 1], atEnd);
    }
  }

  lemma NormalTrim(t: string, atEnd: bool)
    requires NormalText(t, atEnd)
    ensures NormalText(Trim(t), atEnd)
  {
    NormalTrimStart(t, atEnd);
    NormalTrimEnd(TrimStart(t), atEnd);
  }

  // ---------------------------------------------------------------------------
  // What a read does

  /** The nested read inside quotes copies everything up to the next '"', which it consumes
      but does not copy; with no '"' left it copies the rest of the input. */
  lemma {:induction false} ReadQuoted(s: string, pos: nat, ch: int)
    requires pos <= |s| && ch != QUOTE as int
    ensures var r := ReadLoop(s, pos, [QUOTE], ch);
      && QUOTE !in r.text
      && (r.last == QUOTE as int ==> pos < r.pos && s[r.pos - 1] == QUOTE && r.text == s[pos..r.pos - 1])
      && (r.last != QUOTE as int ==> r.pos == |s| && r.text == s[pos..])
    decreases |s| - pos
  {
    if pos < |s| && s[pos] != QUOTE {
      ReadQuoted(s, pos + 1, s[pos] as int);
      var rest := ReadLoop(s, pos + 1, [QUOTE], s[pos] as int);
      if rest.last == QUOTE as int {
        assert s[pos..rest.pos - 1] == [s[pos]] + s[pos + 1..rest.pos - 1];
      } else {
        assert s[pos..] == [s[pos]] + s[pos + 1..];
      }
    }
  }

  /** A top-level read: ending on ';' or ',' it has copied exactly the chars before the stop
      char; otherwise it has consumed the whole input and copied all of it, plus a closing '"'
      for an unterminated quoted span. Either way the copied text is `NormalText`. */
  lemma {:induction false} ReadNormal(s: string, pos: nat, ch: int)
    requires pos <= |s| && ch != SEMICOLON as int && ch != COMMA as int
    ensures ReadNormalPost(s, pos, ReadLoop(s, pos, STOP_CHARS, ch))
    decreases |s| - pos, 1
  {
    if pos < |s| {
      var c := s[pos];
      if c in STOP_CHARS {
      } else if c == QUOTE {
        ReadNormalQuote(s, pos, ch);
      } else {
        ReadNormalPlain(s, pos, ch);
      }
    }
  }

  /** What `ReadNormal` states about a read `r` from `pos`. */
  ghost predicate ReadNormalPost(s: string, pos: nat, r: Read)
    requires pos <= |s|
  {
    NormalText(r.text, !Stopped(r)) && ReadSpan(s, pos, r)
  }

  /** Where the read `r` from `pos` ended and which input it copied. */
  ghost predicate ReadSpan(s: string, pos: nat, r: Read)
    requires pos <= |s|
  {
    && (Stopped(r) ==> pos < r.pos <= |s| && s[r.pos - 1] as int == r.last && r.text == s[pos..r.pos - 1])
    && (!Stopped(r) ==> r.pos == |s| && r.text == s[pos..] + Closing(s[pos..]))
  }

  /** Whether a quoted span is still open after `t` is read in normal mode: `t` holds an odd
      number of '"'. */
  ghost predicate QuoteOpen(t: string)
    decreases |t|
  {
    t != [] && (t[0] == QUOTE) != QuoteOpen(t[1..])
  }

  /** What a read that runs to the end appends to the input `t` it copied: a closing '"' exactly
      when the input ends inside a quoted span with at least one char after its opening '"'. */
  ghost function Closing(t: string): string {
    if t != [] && QuoteOpen(t) && t[|t| - 1] != QUOTE then [QUOTE] else []
  }

  /** Quote-free text leaves the quote state as it is. */
  lemma {:induction false} QuoteFreeOpen(q: string, x: string)
    requires QUOTE !in q
    ensures QuoteOpen(q + x) == QuoteOpen(x)
    decreases |q|
  {
    if q != [] {
      assert (q + x)[0] == q[0] != QUOTE;
      assert (q + x)[1..] == q[1..] + x;
      QuoteFreeOpen(q[1..], x);
    } else {
      assert q + x == x;
    }
  }

  /** A plain char in front does not change what is appended. */
  lemma ClosingPlain(c: char, x: string)
    requires c != QUOTE
    ensures Closing([c] + x) == Closing(x)
  {
    assert ([c] + x)[0] == c && ([c] + x)[1..] == x;
    assert QuoteOpen([c] + x) == QuoteOpen(x);
    if x != [] {
      assert ([c] + x)[|[c] + x| - 1] == x[|x| - 1];
    }
  }

  /** A closed quoted span in front does not change what is appended. */
  lemma ClosingClosed(q: string, x: string)
    requires QUOTE !in q
    ensures Closing([QUOTE] + q + [QUOTE] + x) == Closing(x)
  {
    var t := [QUOTE] + q + [QUOTE] + x;
    assert t[1..] == q + ([QUOTE] + x);
    QuoteFreeOpen(q, [QUOTE] + x);
    assert ([QUOTE] + x)[1..] == x;
    if x != [] {
      assert t[|t| - 1] == x[|x| - 1];
    }
  }

  /** An opening '"' followed by quote-free text up to the end gets its closing '"' iff that
      text is not empty. */
  lemma ClosingOpen(q: string)
    requires QUOTE !in q
    ensures Closing([QUOTE] + q) == if q == [] then [] else [QUOTE]
  {
    assert ([QUOTE] + q)[1..] == q + [];
    QuoteFreeOpen(q, []);
    if q != [] {
      assert ([QUOTE] + q)[|q|] == q[|q| - 1];
    }
  }

  lemma {:induction false} ReadNormalPlain(s: string, pos: nat, ch: int)
    requires pos < |s| && s[pos] !in STOP_CHARS && s[pos] != QUOTE
    requires ch != SEMICOLON as int && ch != COMMA as int
    ensures ReadNormalPost(s, pos, ReadLoop(s, pos, STOP_CHARS, ch))
    decreases |s| - pos, 0
  {
    var c := s[pos];
    var r := ReadLoop(s, pos, STOP_CHARS, ch);
    var rest := ReadLoop(s, pos + 1, STOP_CHARS, c as int);
    ReadNormal(s, pos + 1, c as int);
    assert r.text == [c] + rest.text;
    if Stopped(r) {
      assert s[pos..r.pos - 1] == [c] + s[pos + 1..r.pos - 1];
    } else {
      assert s[pos..] == [c] + s[pos + 1..];
      ClosingPlain(c, s[pos + 1..]);
    }
  }

  lemma {:induction false} ReadNormalQuote(s: string, pos: nat, ch: int)
    requires pos < |s| && s[pos] == QUOTE
    requires ch != SEMICOLON as int && ch != COMMA as int
    ensures ReadNormalPost(s, pos, ReadLoop(s, pos, STOP_CHARS, ch))
    decreases |s| - pos, 0
  {
    var r := ReadLoop(s, pos, STOP_CHARS, ch);
    var inner := ReadLoop(s, pos + 1, [QUOTE], -1);
    ReadQuoted(s, pos + 1, -1);
    var rest := ReadLoop(s, inner.pos, STOP_CHARS, QUOTE as int);
    if inner.last == QUOTE as int {
      ReadNormal(s, inner.pos, QUOTE as int);
      ReadNormalClosed(s, pos, r, inner, rest);
    } else if inner.last == -1 {
      assert r.text == [QUOTE];
      assert s[pos..] == [QUOTE];
      ClosingOpen([]);
    } else {
      assert r.text == [QUOTE] + inner.text + [QUOTE];
      QuotedClose(inner.text, [], true);
      assert r.text[1..] == inner.text + [QUOTE] + [];
      assert s[pos..] == [QUOTE] + inner.text;
      ClosingOpen(inner.text);
    }
  }

  /** The case of `ReadNormalQuote` where the quoted span is closed. */
  lemma ReadNormalClosed(s: string, pos: nat, r: Read, inner: Read, rest: Read)
    requires pos < |s| && s[pos] == QUOTE
    requires pos + 1 < inner.pos <= rest.pos <= |s|
    requires s[inner.pos - 1] == QUOTE && inner.text == s[pos + 1..inner.pos - 1] && QUOTE !in inner.text
    requires r == Read([QUOTE] + inner.text + [QUOTE] + rest.text, rest.pos, rest.last)
    requires ReadNormalPost(s, inner.pos, rest)
    ensures ReadNormalPost(s, pos, r)
  {
    ClosedText(inner.text, rest.text, !Stopped(r));
    ClosedSpan(s, pos, inner.pos, inner.text, rest);
  }

  /** A closed quoted span in front of readable text is readable. */
  lemma ClosedText(q: string, t: string, atEnd: bool)
    requires QUOTE !in q && NormalText(t, atEnd)
    ensures NormalText([QUOTE] + q + [QUOTE] + t, atEnd)
  {
    QuotedClose(q, t, atEnd);
    assert ([QUOTE] + q + [QUOTE] + t)[1..] == q + [QUOTE] + t;
  }

  /** The input from an opening '"' through its closing '"', then the read `rest`. */
  lemma ClosedSpan(s: string, pos: nat, end: nat, q: string, rest: Read)
    requires pos + 1 < end <= rest.pos <= |s| && s[pos] == QUOTE && s[end - 1] == QUOTE && q == s[pos + 1..end - 1]
    requires QUOTE !in q
    requires ReadSpan(s, end, rest)
    ensures ReadSpan(s, pos, Read([QUOTE] + q + [QUOTE] + rest.text, rest.pos, rest.last))
  {
    assert s[pos..end] == [QUOTE] + q + [QUOTE];
    if Stopped(rest) {
      assert s[pos..rest.pos - 1] == s[pos..end] + s[end..rest.pos - 1];
    } else {
      assert s[pos..] == s[pos..end] + s[end..];
      ClosingClosed(q, s[end..]);
    }
  }

  /** A readable text followed by a stop char or by the end of the input reads back as itself. */
  lemma {:induction false} RereadNormal(u: string, p: nat, t: string, rest: string, ch: int)
    requires RereadPre(u, p, t, rest, ch)
    ensures RereadPost(u, p, t, rest, ch, ReadLoop(u, p, STOP_CHARS, ch))
    decreases |t|, 1
  {
    if t == [] {
      if rest != [] {
        assert u[p] == rest[0];
      }
    } else {
      assert u[p] == t[0];
      if t[0] == QUOTE {
        RereadQuote(u, p, t, rest, ch);
      } else {
        assert u[p + 1..] == t[1..] + rest;
        RereadNormal(u, p + 1, t[1..], rest, t[0] as int);
      }
    }
  }

  /** The text `t` stands at `p` in `u`, followed by `rest`, which is empty or starts with a stop char. */
  ghost predicate RereadPre(u: string, p: nat, t: string, rest: string, ch: int) {
    && p <= |u| && u[p..] == t + rest
    && (rest != [] ==> rest[0] == SEMICOLON || rest[0] == COMMA)
    && NormalText(t, rest == [])
    && ch != SEMICOLON as int && ch != COMMA as int
  }

  /** The read from `p` copies exactly `t` and stops on the char after it. */
  ghost predicate RereadPost(u: string, p: nat, t: string, rest: string, ch: int, r: Read) {
    && r.text == t
    && (rest != [] ==> r.pos == |u| - |rest| + 1 && r.last == rest[0] as int)
    && (rest == [] ==> r.pos == |u| && !Stopped(r) && (r.last == -1 <==> t == [] && ch == -1))
  }

  lemma {:induction false} RereadQuote(u: string, p: nat, t: string, rest: string, ch: int)
    requires RereadPre(u, p, t, rest, ch) && t != [] && t[0] == QUOTE
    ensures RereadPost(u, p, t, rest, ch, ReadLoop(u, p, STOP_CHARS, ch))
    decreases |t|, 0
  {
    assert u[p] == QUOTE;
    if rest == [] && |t| == 1 {
      assert p + 1 == |u|;
      UnfoldQuote(u, p, ch);
    } else {
      var q, t' := SplitQuotedInput(u, p, t, rest, ch);
      RereadQuotedSpan(u, p + 1, q);
      RereadNormal(u, p + 2 + |q|, t', rest, QUOTE as int);
      RereadClosedQuote(u, p, ch, q, t', rest);
    }
  }

  /** Splits a text that opens a closed quoted span into the span and the text after it. */
  lemma SplitQuotedInput(u: string, p: nat, t: string, rest: string, ch: int) returns (q: string, t': string)
    requires RereadPre(u, p, t, rest, ch) && t != [] && t[0] == QUOTE && !(rest == [] && |t| == 1)
    ensures t == [QUOTE] + q + [QUOTE] + t'
    ensures p + |q| + 1 < |u| && u[p + 1..p + 1 + |q|] == q && QUOTE !in q && u[p + 1 + |q|] == QUOTE
    ensures RereadPre(u, p + 2 + |q|, t', rest, QUOTE as int)
  {
    var j := QuotedSplit(t[1..], rest == []);
    q, t' := t[1..][..j], t[1..][j + 1..];
    assert t == [QUOTE] + q + [QUOTE] + t';
    assert u[p + 1..] == t[1..] + rest;
    assert u[p + 2 + j..] == t' + rest;
  }

  /** Reading a closed quoted span `q` and then the text `t'`. */
  lemma RereadClosedQuote(u: string, p: nat, ch: int, q: string, t': string, rest: string)
    requires p + |q| + 2 <= |u| && u[p] == QUOTE
    requires ReadLoop(u, p + 1, [QUOTE], -1) == Read(q, p + |q| + 2, QUOTE as int)
    requires RereadPost(u, p + |q| + 2, t', rest, QUOTE as int, ReadLoop(u, p + |q| + 2, STOP_CHARS, QUOTE as int))
    ensures RereadPost(u, p, [QUOTE] + q + [QUOTE] + t', rest, ch, ReadLoop(u, p, STOP_CHARS, ch))
  {
    ComposeQuote(u, p, ch, q, ReadLoop(u, p + |q| + 2, STOP_CHARS, QUOTE as int));
  }

  /** A closed quoted span `q` followed by the read `after`. */
  lemma ComposeQuote(u: string, p: nat, ch: int, q: string, after: Read)
    requires p + |q| + 2 <= |u| && u[p] == QUOTE
    requires ReadLoop(u, p + 1, [QUOTE], -1) == Read(q, p + |q| + 2, QUOTE as int)
    requires ReadLoop(u, p + |q| + 2, STOP_CHARS, QUOTE as int) == after
    ensures ReadLoop(u, p, STOP_CHARS, ch) == Read([QUOTE] + q + [QUOTE] + after.text, after.pos, after.last)
  {
    UnfoldQuote(u, p, ch);
  }

  /** One step of the loop on an opening '"'. */
  lemma UnfoldQuote(s: string, pos: nat, ch: int)
    requires pos < |s| && s[pos] == QUOTE
    ensures var inner := ReadLoop(s, pos + 1, [QUOTE], -1);
      var rest := ReadLoop(s, inner.pos, STOP_CHARS, QUOTE as int);
      ReadLoop(s, pos, STOP_CHARS, ch)
        == Read([QUOTE] + inner.text + (if inner.last != -1 then [QUOTE] else []) + rest.text, rest.pos, rest.last)
  {
  }

  /** The nested read stops at the first '"' after a quote-free span. */
  lemma RereadQuotedSpan(u: string, p: nat, q: string)
    requires p + |q| < |u| && u[p..p + |q|] == q && QUOTE !in q && u[p + |q|] == QUOTE
    ensures ReadLoop(u, p, [QUOTE], -1) == Read(q, p + |q| + 1, QUOTE as int)
  {
    ReadQuoted(u, p, -1);
  }

  // ---------------------------------------------------------------------------
  // Unterminated quotes and empty clauses

  /** The nested read over quote-free text copies the rest of the input; it returns -1
      exactly when there was nothing left to read. */
  lemma ReadQuotedToEnd(s: string, pos: nat)
    requires pos <= |s| && QUOTE !in s[pos..]
    ensures var r := ReadLoop(s, pos, [QUOTE], -1);
      r.text == s[pos..] && r.pos == |s| && (r.last == -1 <==> pos == |s|)
  {
    ReadQuoted(s, pos, -1);
  }

  /** The text a read copies for readable text `t` followed by an unterminated quoted span
      `[QUOTE] + q`: a closing '"' is appended unless the opening one was the last char. */
  function Unterminated(t: string, q: string): string {
    t + [QUOTE] + q + if q == [] then [] else [QUOTE]
  }

  /** An unterminated quoted span after readable text runs to the end of the input, ';' and
      ',' included, and the read still appends a closing '"' unless the opening '"' was the
      last char of the input. */
  lemma {:induction false} ReadUnterminated(s: string, pos: nat, t: string, q: string, ch: int)
    requires pos <= |s| && s[pos..] == t + [QUOTE] + q
    requires NormalText(t, false) && QUOTE !in q
    requires ch != SEMICOLON as int && ch != COMMA as int
    ensures ReadLoop(s, pos, STOP_CHARS, ch) == Read(Unterminated(t, q), |s|, QUOTE as int)
    decreases |t|, 1
  {
    if t == [] {
      ReadOpenQuote(s, pos, q, ch);
    } else if t[0] != QUOTE {
      ReadUnterminatedPlain(s, pos, t, q, ch);
    } else {
      ReadUnterminatedQuote(s, pos, t, q, ch);
    }
  }

  /** The opening '"' of the unterminated span. */
  lemma ReadOpenQuote(s: string, pos: nat, q: string, ch: int)
    requires pos <= |s| && s[pos..] == [QUOTE] + q && QUOTE !in q
    ensures ReadLoop(s, pos, STOP_CHARS, ch) == Read(Unterminated([], q), |s|, QUOTE as int)
  {
    assert s[pos] == s[pos..][0] == QUOTE;
    assert s[pos + 1..] == q;
    UnfoldQuote(s, pos, ch);
    ReadQuotedToEnd(s, pos + 1);
  }

  lemma {:induction false} ReadUnterminatedPlain(s: string, pos: nat, t: string, q: string, ch: int)
    requires pos <= |s| && s[pos..] == t + [QUOTE] + q
    requires NormalText(t, false) && QUOTE !in q && t != [] && t[0] != QUOTE
    requires ch != SEMICOLON as int && ch != COMMA as int
    ensures ReadLoop(s, pos, STOP_CHARS, ch) == Read(Unterminated(t, q), |s|, QUOTE as int)
    decreases |t|, 0
  {
    assert s[pos] == s[pos..][0] == t[0];
    assert s[pos + 1..] == t[1..] + [QUOTE] + q;
    ReadUnterminated(s, pos + 1, t[1..], q, t[0] as int);
    assert [t[0]] + Unterminated(t[1..], q) == Unterminated(t, q);
  }

  lemma {:induction false} ReadUnterminatedQuote(s: string, pos: nat, t: string, q: string, ch: int)
    requires pos <= |s| && s[pos..] == t + [QUOTE] + q
    requires NormalText(t, false) && QUOTE !in q && t != [] && t[0] == QUOTE
    ensures ReadLoop(s, pos, STOP_CHARS, ch) == Read(Unterminated(t, q), |s|, QUOTE as int)
    decreases |t|, 0
  {
    var q', t' := SplitClosedSpan(s, pos, t, q);
    var end := pos + 2 + |q'|;
    RereadQuotedSpan(s, pos + 1, q');
    ReadUnterminated(s, end, t', q, QUOTE as int);
    ComposeQuote(s, pos, ch, q', Read(Unterminated(t', q), |s|, QUOTE as int));
    UnterminatedAfterSpan(q', t', q);
  }

  lemma UnterminatedAfterSpan(q': string, t': string, q: string)
    ensures [QUOTE] + q' + [QUOTE] + Unterminated(t', q) == Unterminated([QUOTE] + q' + [QUOTE] + t', q)
  {
  }

  /** Splits readable text that opens with a quote into its closed quoted span and the rest. */
  lemma SplitClosedSpan(s: string, pos: nat, t: string, q: string) returns (q': string, t': string)
    requires pos <= |s| && s[pos..] == t + [QUOTE] + q
    requires NormalText(t, false) && t != [] && t[0] == QUOTE
    ensures t == [QUOTE] + q' + [QUOTE] + t' && |t'| < |t| && NormalText(t', false) && QUOTE !in q'
    ensures s[pos] == QUOTE && pos + 1 + |q'| < |s|
    ensures s[pos + 1..pos + 1 + |q'|] == q' && s[pos + 1 + |q'|] == QUOTE
    ensures s[pos + 2 + |q'|..] == t' + [QUOTE] + q
  {
    var j := QuotedSplit(t[1..], false);
    q', t' := t[1..][..j], t[1..][j + 1..];
    assert t == [QUOTE] + q' + [QUOTE] + t';
    assert s[pos] == s[pos..][0];
    SliceShift(s, pos, 1, 1 + |q'|);
    assert s[pos + 1 + |q'|] == s[pos..][1 + |q'|];
    assert s[pos + 2 + |q'|..] == s[pos..][2 + |q'|..];
  }

  /** A slice of the suffix from `pos` is a slice of the whole. */
  lemma SliceShift(s: string, pos: nat, i: nat, j: nat)
    requires i <= j && pos + j <= |s|
    ensures s[pos + i..pos + j] == s[pos..][i..j]
  {
  }

  /** Clauses that read back as themselves wherever they stand. */
  predicate ClausesClosed(es: seq<Entry>) {
    forall i :: 0 <= i < |es| ==> ClauseOk(es[i], false)
  }

  /** A header whose last clause ends in an attribute that opens a quote and never closes it.
      The clauses and attributes before it read back as themselves. The last attribute runs
      to the end of the header, ',' and ';' included, and comes back with a closing '"',
      except when the opening '"' is the header's last char: `foo;a"b,c` is foo with the
      attribute `a"b,c"`, and `foo;a"` is foo with the attribute `a"`. */
  lemma ParseUnterminated(es: seq<Entry>, e: Entry, t: string, q: string)
    requires ClausesClosed(es) && ClauseOk(e, false)
    requires NormalText(t, false) && QUOTE !in q
    ensures Parse(Serialize(es + [e]) + [SEMICOLON] + t + [QUOTE] + q)
         == es + [Entry(e.bundle, e.attributes + [Unterminated(t, q)])]
  {
    var u := Serialize(es + [e]) + [SEMICOLON] + t + [QUOTE] + q;
    var tail := UnterminatedText(es, e, t, q);
    if es == [] {
      UnterminatedLast(u, 0, e, t, q);
    } else {
      RereadClausesBefore(u, 0, es, tail);
      var p := |u| - |tail|;
      SuffixAt(u, 0, Serialize(es) + [COMMA], tail);
      UnterminatedLast(u, p, e, t, q);
    }
  }

  /** The header of `ParseUnterminated` as the closed clauses, then the last one. */
  lemma UnterminatedText(es: seq<Entry>, e: Entry, t: string, q: string) returns (tail: string)
    ensures tail == ToString(e) + [SEMICOLON] + t + [QUOTE] + q
    ensures Serialize(es + [e]) + [SEMICOLON] + t + [QUOTE] + q
         == (if es == [] then [] else Serialize(es) + [COMMA]) + tail
  {
    tail := ToString(e) + [SEMICOLON] + t + [QUOTE] + q;
    SerializeSnoc(es, e);
    Reassociate(if es == [] then [] else Serialize(es) + [COMMA], ToString(e), [SEMICOLON] + t + [QUOTE] + q);
  }

  lemma Reassociate(x: string, y: string, z: string)
    ensures (x + y) + z == x + (y + z)
  {
  }

  /** The public parse of the last clause, whose final attribute leaves a quote open. */
  lemma UnterminatedLast(u: string, p: nat, e: Entry, t: string, q: string)
    requires p <= |u| && u[p..] == ToString(e) + [SEMICOLON] + t + [QUOTE] + q
    requires ClauseOk(e, false) && NormalText(t, false) && QUOTE !in q
    ensures ParseFrom(u, p) == [Entry(e.bundle, e.attributes + [Unterminated(t, q)])]
  {
    UnterminatedClause(u, p, e, t, q);
    ParseFromStep(u, p, Entry(e.bundle, e.attributes + [Unterminated(t, q)]), |u|);
    ParseFromEnd(u);
  }

  /** Printing one more clause appends its toString after a ','. */
  lemma {:induction false} SerializeSnoc(es: seq<Entry>, e: Entry)
    ensures Serialize(es + [e]) == (if es == [] then [] else Serialize(es) + [COMMA]) + ToString(e)
    decreases |es|
  {
    if es != [] {
      assert (es + [e])[1..] == es[1..] + [e];
      SerializeSnoc(es[1..], e);
    }
  }

  /** Printed closed clauses followed by a ',' read back, leaving the cursor after that ','. */
  lemma {:induction false} RereadClausesBefore(u: string, p: nat, es: seq<Entry>, rest: string)
    requires p <= |u| && u[p..] == Serialize(es) + [COMMA] + rest && es != []
    requires ClausesClosed(es)
    ensures |rest| < |u| && ParseFrom(u, p) == es + ParseFrom(u, |u| - |rest|)
    decreases |es|
  {
    var next := RereadClauseBefore(u, p, es, rest);
    if |es| > 1 {
      RereadClausesBefore(u, next, es[1..], rest);
    }
    ConsClauses(es, ParseFrom(u, p), ParseFrom(u, next), ParseFrom(u, |u| - |rest|));
  }

  /** The first clause in front of the parse of the rest. */
  lemma ConsClauses(es: seq<Entry>, r: seq<Entry>, r1: seq<Entry>, r2: seq<Entry>)
    requires es != [] && r == [es[0]] + r1
    requires |es| == 1 ==> r1 == r2
    requires |es| > 1 ==> r1 == es[1..] + r2
    ensures r == es + r2
  {
    assert [es[0]] + es[1..] == es;
  }

  /** One turn of `RereadClausesBefore`: the first clause and the ',' after it. */
  lemma RereadClauseBefore(u: string, p: nat, es: seq<Entry>, rest: string) returns (next: nat)
    requires p <= |u| && u[p..] == Serialize(es) + [COMMA] + rest && es != []
    requires ClausesClosed(es)
    ensures |rest| < |u| && next <= |u| && ParseFrom(u, p) == [es[0]] + ParseFrom(u, next)
    ensures |es| == 1 ==> next == |u| - |rest|
    ensures |es| > 1 ==> u[next..] == Serialize(es[1..]) + [COMMA] + rest && ClausesClosed(es[1..])
  {
    var x := SerializeBefore(es, rest);
    ClausesClosedCons(es);
    next := RereadClauseComma(u, p, es[0], x);
  }

  /** The public parse reads back a closed printed clause followed by a ','. */
  lemma RereadClauseComma(u: string, p: nat, e: Entry, x: string) returns (next: nat)
    requires p <= |u| && u[p..] == ToString(e) + ([COMMA] + x) && ClauseOk(e, false)
    ensures next == |u| - |x| && p < next && u[next..] == x
    ensures ParseFrom(u, p) == [e] + ParseFrom(u, next)
  {
    RereadClause(u, p, e, [COMMA] + x);
    next := |u| - |x|;
    SuffixAt(u, p, ToString(e) + [COMMA], x);
    ParseFromStep(u, p, e, next);
  }

  /** Printed clauses and a ',' before `rest`: the first clause's toString, a ',', and `x`. */
  lemma SerializeBefore(es: seq<Entry>, rest: string) returns (x: string)
    requires es != []
    ensures x == if |es| == 1 then rest else Serialize(es[1..]) + [COMMA] + rest
    ensures Serialize(es) + [COMMA] + rest == ToString(es[0]) + ([COMMA] + x)
  {
    x := if |es| == 1 then rest else Serialize(es[1..]) + [COMMA] + rest;
    SerializeCons(es);
  }

  lemma ClausesClosedCons(es: seq<Entry>)
    requires es != [] && ClausesClosed(es)
    ensures ClauseOk(es[0], false) && ClausesClosed(es[1..])
  {
    forall i | 0 <= i < |es[1..]| ensures ClauseOk(es[1..][i], false) {
      assert es[1..][i] == es[i + 1];
    }
  }

  /** The private parse of a printed clause followed by `;t"q`, where the quote stays open. */
  lemma UnterminatedClause(u: string, p: nat, e: Entry, t: string, q: string)
    requires p <= |u| && u[p..] == ToString(e) + [SEMICOLON] + t + [QUOTE] + q
    requires ClauseOk(e, false) && NormalText(t, false) && QUOTE !in q
    ensures ParseEntryAt(u, p) == (Some(Entry(e.bundle, e.attributes + [Unterminated(t, q)])), |u|)
  {
    var start := UnterminatedIdentifier(u, p, e, t, q);
    ReadAttributesUnterminated(u, start, e.attributes, t, q);
    TrimTrimmed(e.bundle);
  }

  /** The first read of the clause yields its identifier and stops on the ';' after it. */
  lemma UnterminatedIdentifier(u: string, p: nat, e: Entry, t: string, q: string) returns (start: nat)
    requires p <= |u| && u[p..] == ToString(e) + [SEMICOLON] + t + [QUOTE] + q
    requires ClauseOk(e, false)
    ensures 1 <= start <= |u| && u[start - 1..] == AttributesText(e.attributes) + [SEMICOLON] + t + [QUOTE] + q
    ensures ReadUntil(u, p, STOP_CHARS) == Read(e.bundle, start, SEMICOLON as int)
  {
    var after := AttributesText(e.attributes) + [SEMICOLON] + t + [QUOTE] + q;
    assert u[p..] == e.bundle + after;
    assert after[0] == SEMICOLON;
    RereadNormal(u, p, e.bundle, after, -1);
    start := |u| - |after| + 1;
    SuffixAt(u, p, e.bundle, after);
  }

  /** The attribute loop reads back closed printed attributes, each followed by a ';', and
      then the attribute that leaves a quote open, which ends the input. */
  lemma {:induction false} ReadAttributesUnterminated(u: string, p: nat, attributes: seq<string>, t: string, q: string)
    requires 1 <= p <= |u| && u[p - 1..] == AttributesText(attributes) + [SEMICOLON] + t + [QUOTE] + q
    requires AttributesOk(attributes, false) && NormalText(t, false) && QUOTE !in q
    ensures ReadAttributes(u, p) == (attributes + [Unterminated(t, q)], |u|)
    decreases |attributes|
  {
    if attributes == [] {
      assert AttributesText(attributes) == [];
      assert u[p..] == t + [QUOTE] + q by {
        assert u[p..] == u[p - 1..][1..];
      }
      UnterminatedAttribute(u, p, t, q);
      assert attributes + [Unterminated(t, q)] == [Unterminated(t, q)];
    } else {
      var next := ReadAttributeThen(u, p, attributes, t + [QUOTE] + q);
      ReadAttributesUnterminated(u, next, attributes[1..], t, q);
      ConsSnoc(attributes, Unterminated(t, q));
    }
  }

  lemma ConsSnoc(attributes: seq<string>, last: string)
    requires attributes != []
    ensures [attributes[0]] + (attributes[1..] + [last]) == attributes + [last]
  {
    assert [attributes[0]] + attributes[1..] == attributes;
  }

  /** The attribute that leaves a quote open is the last one. */
  lemma UnterminatedAttribute(u: string, p: nat, t: string, q: string)
    requires p <= |u| && u[p..] == t + [QUOTE] + q && NormalText(t, false) && QUOTE !in q
    ensures ReadAttributes(u, p) == ([Unterminated(t, q)], |u|)
  {
    ReadUnterminated(u, p, t, q, -1);
  }

  /** The first attribute and the ';' after it. */
  lemma ReadAttributeThen(u: string, p: nat, attributes: seq<string>, tail: string) returns (next: nat)
    requires 1 <= p <= |u| && u[p - 1..] == AttributesText(attributes) + [SEMICOLON] + tail
    requires AttributesOk(attributes, false) && attributes != []
    ensures next == p + |attributes[0]| + 1 && 1 <= next <= |u|
    ensures u[next - 1..] == AttributesText(attributes[1..]) + [SEMICOLON] + tail
    ensures AttributesOk(attributes[1..], false)
    ensures |AttributesText(attributes)| == |attributes[0]| + 1 + |AttributesText(attributes[1..])|
    ensures ReadAttributes(u, p) == ([attributes[0]] + ReadAttributes(u, next).0, ReadAttributes(u, next).1)
  {
    var a := attributes[0];
    var more := AttributesText(attributes[1..]) + [SEMICOLON] + tail;
    assert u[p - 1..] == [SEMICOLON] + (a + more);
    assert u[p..] == a + more by {
      assert u[p..] == u[p - 1..][1..];
    }
    assert more[0] == SEMICOLON;
    assert NormalText(a, false);
    RereadNormal(u, p, a, more, -1);
    next := |u| - |more| + 1;
    SuffixAt(u, p, a, more);
    AttributesOkTail(attributes, false);
  }

  /** All attributes but the first are as readable as they were. */
  lemma AttributesOkTail(attributes: seq<string>, last: bool)
    requires AttributesOk(attributes, last) && attributes != []
    ensures AttributesOk(attributes[1..], last)
  {
    forall i | 0 <= i < |attributes[1..]|
      ensures NormalText(attributes[1..][i], last && i == |attributes[1..]| - 1)
    {
      assert attributes[1..][i] == attributes[i + 1];
    }
  }

  // ---------------------------------------------------------------------------
  // Clauses read back as themselves

  /** A closed text may stand anywhere. */
  lemma NormalTextAnywhere(t: string, atEnd: bool)
    requires NormalText(t, false)
    ensures NormalText(t, atEnd)
  {
    if atEnd {
      NormalTextAtEnd(t);
    }
  }

  lemma ClauseOkAnywhere(e: Entry, last: bool)
    requires ClauseOk(e, false)
    ensures ClauseOk(e, last)
  {
    NormalTextAnywhere(e.bundle, last && e.attributes == []);
    forall i | 0 <= i < |e.attributes|
      ensures NormalText(e.attributes[i], last && i == |e.attributes| - 1)
    {
      NormalTextAnywhere(e.attributes[i], last && i == |e.attributes| - 1);
    }
  }

  /** The attribute loop reads back printed attributes, empty ones included. */
  lemma {:induction false} RereadAttributes(u: string, p: nat, attributes: seq<string>, rest: string)
    requires |attributes| >= 1 && p <= |u|
    requires u[p..] == attributes[0] + AttributesText(attributes[1..]) + rest
    requires rest != [] ==> rest[0] == COMMA
    requires AttributesOk(attributes, rest == [])
    ensures ReadAttributes(u, p) == (attributes, if rest == [] then |u| else |u| - |rest| + 1)
    decreases |attributes|
  {
    if |attributes| == 1 {
      RereadLastAttribute(u, p, attributes, rest);
      assert [attributes[0]] == attributes;
    } else {
      var next := RereadNextAttribute(u, p, attributes, rest);
      RereadAttributes(u, next, attributes[1..], rest);
      assert [attributes[0]] + attributes[1..] == attributes;
    }
  }

  /** The last attribute reads back, and the loop ends after it. */
  lemma RereadLastAttribute(u: string, p: nat, attributes: seq<string>, rest: string)
    requires |attributes| == 1 && p <= |u|
    requires u[p..] == attributes[0] + AttributesText(attributes[1..]) + rest
    requires rest != [] ==> rest[0] == COMMA
    requires AttributesOk(attributes, rest == [])
    ensures ReadAttributes(u, p) == ([attributes[0]], if rest == [] then |u| else |u| - |rest| + 1)
  {
    assert u[p..] == attributes[0] + rest;
    assert NormalText(attributes[0], rest == []);
    RereadNormal(u, p, attributes[0], rest, -1);
  }

  /** An attribute followed by more reads back, and the loop goes on after its ';'. */
  lemma RereadNextAttribute(u: string, p: nat, attributes: seq<string>, rest: string) returns (next: nat)
    requires |attributes| >= 2 && p <= |u|
    requires u[p..] == attributes[0] + AttributesText(attributes[1..]) + rest
    requires AttributesOk(attributes, rest == [])
    ensures next <= |u| && u[next..] == attributes[1] + AttributesText(attributes[2..]) + rest
    ensures AttributesOk(attributes[1..], rest == [])
    ensures ReadAttributes(u, p) == ([attributes[0]] + ReadAttributes(u, next).0, ReadAttributes(u, next).1)
  {
    var tail' := attributes[1] + AttributesText(attributes[2..]) + rest;
    var tail := [SEMICOLON] + tail';
    assert AttributesText(attributes[1..]) + rest == tail by {
      assert attributes[1..][1..] == attributes[2..];
    }
    assert NormalText(attributes[0], false);
    RereadNormal(u, p, attributes[0], tail, -1);
    next := |u| - |tail| + 1;
    SuffixAt(u, p, attributes[0] + [SEMICOLON], tail');
    AttributesOkTail(attributes, rest == []);
  }

  /** The private parse reads back a printed clause. */
  lemma RereadClause(u: string, p: nat, e: Entry, rest: string)
    requires p <= |u| && u[p..] == ToString(e) + rest
    requires rest != [] ==> rest[0] == COMMA
    requires ClauseOk(e, rest == [])
    ensures ParseEntryAt(u, p) == (Some(e), if rest == [] then |u| else |u| - |rest| + 1)
  {
    var id := ReadUntil(u, p, STOP_CHARS);
    RereadIdentifier(u, p, e, rest);
    TrimTrimmed(e.bundle);
    if e.attributes != [] {
      RereadAttributes(u, id.pos, e.attributes, rest);
    }
  }

  /** The first read of a printed clause yields its identifier and stops on the ';' before
      the attributes, if any. */
  lemma RereadIdentifier(u: string, p: nat, e: Entry, rest: string)
    requires p < |u| && u[p..] == ToString(e) + rest
    requires rest != [] ==> rest[0] == COMMA
    requires NormalText(e.bundle, rest == [] && e.attributes == []) && AttributesOk(e.attributes, rest == [])
    ensures var id := ReadUntil(u, p, STOP_CHARS);
      && id.text == e.bundle && id.last != -1
      && (e.attributes == [] ==> id.last != SEMICOLON as int && id.pos == if rest == [] then |u| else |u| - |rest| + 1)
      && (e.attributes != [] ==> id.last == SEMICOLON as int && id.pos <= |u|
                                 && u[id.pos..] == e.attributes[0] + AttributesText(e.attributes[1..]) + rest)
  {
    var tail := AttributesText(e.attributes) + rest;
    assert u[p..] == e.bundle + tail;
    RereadNormal(u, p, e.bundle, tail, -1);
    if e.attributes != [] {
      var tail' := e.attributes[0] + AttributesText(e.attributes[1..]) + rest;
      assert tail == [SEMICOLON] + tail';
      assert u[|u| - |tail| + 1..] == tail' by {
        assert u[p..][|e.bundle| + 1..] == tail';
      }
    }
  }

  /** A printed clause whose identifier is blank is dropped together with its attributes:
      the public parse goes on after it as if it were not there. */
  lemma ParseBlankClause(u: string, p: nat, e: Entry, rest: string)
    requires p < |u| && u[p..] == ToString(e) + rest
    requires rest != [] ==> rest[0] == COMMA
    requires Blank(e.bundle) && AttributesOk(e.attributes, rest == [])
    ensures ParseFrom(u, p) == ParseFrom(u, if rest == [] then |u| else |u| - |rest| + 1)
  {
    BlankReadable(e.bundle, rest == [] && e.attributes == []);
    var id := ReadUntil(u, p, STOP_CHARS);
    RereadIdentifier(u, p, e, rest);
    TrimBlank(e.bundle);
    if e.attributes != [] {
      RereadAttributes(u, id.pos, e.attributes, rest);
    }
    var next := if rest == [] then |u| else |u| - |rest| + 1;
    assert ParseEntryAt(u, p) == (None, next);
    ParseFromSkip(u, p, next);
  }

  lemma BlankReadable(t: string, atEnd: bool)
    requires Blank(t)
    ensures NormalText(t, atEnd)
  {
    BlankPlain(t);
    NormalPlainPrefix(t, [], atEnd);
    assert t + [] == t;
  }

  /** Chars String.trim removes are neither quotes nor stop chars. */
  lemma BlankPlain(t: string)
    requires Blank(t)
    ensures Plain(t)
  {
    forall c | c in t ensures c != QUOTE && c != SEMICOLON && c != COMMA {
      var i :| 0 <= i < |t| && t[i] == c;
      assert Trimmable(t[i]);
    }
  }

  // ---------------------------------------------------------------------------
  // Identifiers padded with blanks

  /** Plain text after closed readable text keeps it readable. */
  lemma {:induction false} NormalAppendPlain(t: string, y: string, atEnd: bool)
    requires NormalText(t, false) && Plain(y)
    ensures NormalText(t + y, atEnd)
    decreases |t|, 1
  {
    if t == [] {
      NormalPlainPrefix(y, [], atEnd);
      assert y + [] == y && t + y == y;
    } else {
      assert (t + y)[0] == t[0] && (t + y)[1..] == t[1..] + y;
      if t[0] == QUOTE {
        QuotedAppendPlain(t[1..], y, atEnd);
      } else {
        NormalAppendPlain(t[1..], y, atEnd);
      }
    }
  }

  lemma {:induction false} QuotedAppendPlain(x: string, y: string, atEnd: bool)
    requires QuotedText(x, false) && Plain(y)
    ensures QuotedText(x + y, atEnd)
    decreases |x|, 0
  {
    assert (x + y)[0] == x[0] && (x + y)[1..] == x[1..] + y;
    if x[0] == QUOTE {
      NormalAppendPlain(x[1..], y, atEnd);
    } else {
      QuotedAppendPlain(x[1..], y, atEnd);
    }
  }

  /** A readable identifier padded with blanks is readable; padding after it needs its quoted
      spans closed. */
  lemma PaddedReadable(x: string, b: string, y: string, atEnd: bool)
    requires Blank(x) && Blank(y) && NormalText(b, atEnd && y == [])
    ensures NormalText(x + b + y, atEnd)
  {
    BlankPlain(x);
    BlankPlain(y);
    if y == [] {
      assert x + b + y == x + b;
      NormalPlainPrefix(x, b, atEnd);
    } else {
      NormalAppendPlain(b, y, atEnd);
      assert x + b + y == x + (b + y);
      NormalPlainPrefix(x, b + y, atEnd);
    }
  }

  /** The clause `e` printed with the blanks `x` before and `y` after its identifier, as in
      "a, b" or "a ;x". */
  function Padded(e: Entry, x: string, y: string): Entry {
    Entry(x + e.bundle + y, e.attributes)
  }

  /** Blank padding around a readable clause. Padding after the identifier must not follow a
      quote the identifier leaves open. */
  predicate PaddingOk(e: Entry, x: string, y: string, last: bool) {
    && ClauseOk(e, last) && Blank(x) && Blank(y)
    && (y != [] ==> NormalText(e.bundle, false))
  }

  /** The private parse stores the trimmed identifier: a readable clause printed with blanks
      around its identifier reads back as the clause itself. */
  lemma RereadPaddedClause(u: string, p: nat, e: Entry, x: string, y: string, rest: string)
    requires p <= |u| && u[p..] == ToString(Padded(e, x, y)) + rest
    requires rest != [] ==> rest[0] == COMMA
    requires PaddingOk(e, x, y, rest == [])
    ensures ParseEntryAt(u, p) == (Some(e), if rest == [] then |u| else |u| - |rest| + 1)
  {
    var padded := Padded(e, x, y);
    PaddedReadable(x, e.bundle, y, rest == [] && e.attributes == []);
    assert |x + e.bundle + y| > 0;
    var id := ReadUntil(u, p, STOP_CHARS);
    RereadIdentifier(u, p, padded, rest);
    TrimPadded(x, e.bundle, y);
    if e.attributes != [] {
      RereadAttributes(u, id.pos, e.attributes, rest);
    }
  }

  /** Each clause `es[i]` padded with `xs[i]` and `ys[i]`. */
  function PadAll(es: seq<Entry>, xs: seq<string>, ys: seq<string>): (r: seq<Entry>)
    requires |xs| == |es| && |ys| == |es|
    ensures |r| == |es| && forall i :: 0 <= i < |es| ==> r[i] == Padded(es[i], xs[i], ys[i])
  {
    seq(|es|, i requires 0 <= i < |es| => Padded(es[i], xs[i], ys[i]))
  }

  predicate PaddingsOk(es: seq<Entry>, xs: seq<string>, ys: seq<string>) {
    && |xs| == |es| && |ys| == |es|
    && forall i :: 0 <= i < |es| ==> PaddingOk(es[i], xs[i], ys[i], i == |es| - 1)
  }

  /** The public parse reads back padded printed clauses, with their identifiers trimmed. */
  lemma {:induction false} RereadPaddedClauses(u: string, p: nat, es: seq<Entry>, xs: seq<string>, ys: seq<string>)
    requires PaddingsOk(es, xs, ys) && p <= |u| && u[p..] == Serialize(PadAll(es, xs, ys))
    ensures ParseFrom(u, p) == es
    decreases |es|
  {
    if es == [] {
      assert |u[p..]| == 0;
      ParseFromEnd(u);
    } else {
      var next := RereadFirstPadded(u, p, es, xs, ys);
      if |es| > 1 {
        RereadPaddedClauses(u, next, es[1..], xs[1..], ys[1..]);
      } else {
        ParseFromEnd(u);
      }
      assert [es[0]] + es[1..] == es;
    }
  }

  /** The first of padded printed clauses reads back, leaving the cursor on the rest. */
  lemma RereadFirstPadded(u: string, p: nat, es: seq<Entry>, xs: seq<string>, ys: seq<string>) returns (next: nat)
    requires PaddingsOk(es, xs, ys) && p <= |u| && u[p..] == Serialize(PadAll(es, xs, ys)) && es != []
    ensures next <= |u| && ParseFrom(u, p) == [es[0]] + ParseFrom(u, next)
    ensures |es| == 1 ==> next == |u|
    ensures |es| > 1 ==> u[next..] == Serialize(PadAll(es[1..], xs[1..], ys[1..])) && PaddingsOk(es[1..], xs[1..], ys[1..])
  {
    if |es| == 1 {
      RereadOnlyPadded(u, p, es, xs, ys);
      next := |u|;
    } else {
      PaddingsTail(es, xs, ys);
      next := RereadNextPadded(u, p, PadAll(es, xs, ys), es[0], xs[0], ys[0]);
    }
    ParseFromStep(u, p, es[0], next);
  }

  lemma RereadOnlyPadded(u: string, p: nat, es: seq<Entry>, xs: seq<string>, ys: seq<string>)
    requires PaddingsOk(es, xs, ys) && p <= |u| && u[p..] == Serialize(PadAll(es, xs, ys)) && |es| == 1
    ensures ParseEntryAt(u, p) == (Some(es[0]), |u|)
  {
    var ps := PadAll(es, xs, ys);
    assert u[p..] == ToString(ps[0]) + [];
    RereadPaddedClause(u, p, es[0], xs[0], ys[0], []);
  }

  /** The first clause `ps[0]` of several, `e` padded, reads back up to its ','. */
  lemma RereadNextPadded(u: string, p: nat, ps: seq<Entry>, e: Entry, x: string, y: string) returns (next: nat)
    requires p <= |u| && u[p..] == Serialize(ps) && |ps| > 1
    requires ps[0] == Padded(e, x, y) && PaddingOk(e, x, y, false)
    ensures next <= |u| && u[next..] == Serialize(ps[1..])
    ensures ParseEntryAt(u, p) == (Some(e), next)
  {
    SerializeCons(ps);
    var tail := Serialize(ps[1..]);
    var rest := [COMMA] + tail;
    assert u[p..] == ToString(ps[0]) + rest;
    RereadPaddedClause(u, p, e, x, y, rest);
    next := |u| - |rest| + 1;
    SuffixAt(u, p, ToString(ps[0]) + [COMMA], tail);
  }

  /** Paddings of all clauses but the first. */
  lemma PaddingsTail(es: seq<Entry>, xs: seq<string>, ys: seq<string>)
    requires PaddingsOk(es, xs, ys) && |es| > 1
    ensures PaddingOk(es[0], xs[0], ys[0], false) && PaddingsOk(es[1..], xs[1..], ys[1..])
    ensures PadAll(es, xs, ys)[1..] == PadAll(es[1..], xs[1..], ys[1..])
  {
    forall i | 0 <= i < |es[1..]|
      ensures PaddingOk(es[1..][i], xs[1..][i], ys[1..][i], i == |es[1..]| - 1)
    {
      assert es[1..][i] == es[i + 1] && xs[1..][i] == xs[i + 1] && ys[1..][i] == ys[i + 1];
    }
  }

  /** A header whose identifiers carry blanks around them, such as "a, b;x" written for the
      clauses a and b;x, parses to the clauses with their identifiers trimmed and their
      attributes as written. */
  lemma ParsePadded(es: seq<Entry>, xs: seq<string>, ys: seq<string>)
    requires PaddingsOk(es, xs, ys)
    ensures Parse(Serialize(PadAll(es, xs, ys))) == es
  {
    RereadPaddedClauses(Serialize(PadAll(es, xs, ys)), 0, es, xs, ys);
  }

  /** One turn of the public parse's loop over a clause it drops. */
  lemma ParseFromSkip(u: string, p: nat, next: nat)
    requires p < |u| && next <= |u| && ParseEntryAt(u, p) == (None, next)
    ensures ParseFrom(u, p) == ParseFrom(u, next)
  {
  }

  /** The public parse reads back printed clauses. */
  lemma {:induction false} RereadClauses(u: string, p: nat, es: seq<Entry>)
    requires p <= |u| && u[p..] == Serialize(es) && ClausesOk(es)
    ensures ParseFrom(u, p) == es
    decreases |es|
  {
    if es == [] {
      assert |u[p..]| == 0;
      ParseFromEnd(u);
    } else {
      var next := RereadFirstClause(u, p, es);
      if |es| > 1 {
        RereadClauses(u, next, es[1..]);
      } else {
        ParseFromEnd(u);
      }
      assert [es[0]] + es[1..] == es;
    }
  }

  /** The first clause of printed clauses reads back, leaving the cursor on the rest. */
  lemma RereadFirstClause(u: string, p: nat, es: seq<Entry>) returns (next: nat)
    requires p <= |u| && u[p..] == Serialize(es) && ClausesOk(es) && es != []
    ensures next <= |u| && ParseFrom(u, p) == [es[0]] + ParseFrom(u, next)
    ensures |es| == 1 ==> next == |u|
    ensures |es| > 1 ==> u[next..] == Serialize(es[1..]) && ClausesOk(es[1..])
  {
    var first := ToString(es[0]);
    var rest := if |es| == 1 then [] else [COMMA] + Serialize(es[1..]);
    SerializeCons(es);
    assert u[p..] == first + rest;
    ClausesOkCons(es);
    RereadClause(u, p, es[0], rest);
    next := if rest == [] then |u| else |u| - |rest| + 1;
    ParseFromStep(u, p, es[0], next);
    if |es| > 1 {
      assert first + rest == first + [COMMA] + Serialize(es[1..]);
      SuffixAt(u, p, first + [COMMA], Serialize(es[1..]));
    }
  }

  /** The public parse finds nothing at the end of the input. */
  lemma ParseFromEnd(u: string)
    ensures ParseFrom(u, |u|) == []
  {
  }

  /** One turn of the public parse's loop over a clause it keeps. */
  lemma ParseFromStep(u: string, p: nat, e: Entry, next: nat)
    requires p < |u| && next <= |u| && ParseEntryAt(u, p) == (Some(e), next)
    ensures ParseFrom(u, p) == [e] + ParseFrom(u, next)
  {
  }

  lemma SerializeCons(es: seq<Entry>)
    requires es != []
    ensures Serialize(es) == ToString(es[0]) + if |es| == 1 then [] else [COMMA] + Serialize(es[1..])
  {
  }

  lemma ClausesOkCons(es: seq<Entry>)
    requires es != [] && ClausesOk(es)
    ensures ClauseOk(es[0], |es| == 1) && ClausesOk(es[1..])
  {
    forall i | 0 <= i < |es[1..]|
      ensures ClauseOk(es[1..][i], i == |es[1..]| - 1)
    {
      assert es[1..][i] == es[i + 1];
    }
  }

  /** What follows a known prefix of the input. */
  lemma SuffixAt(u: string, p: nat, x: string, y: string)
    requires p <= |u| && u[p..] == x + y
    ensures |u| - |y| == p + |x| && u[|u| - |y|..] == y
  {
    assert u[p..][|x|..] == y;
  }

  /** Printing readable clauses with toString, joined by ',', and parsing the text gives the
      clauses back. */
  lemma ParseSerialize(es: seq<Entry>)
    requires ClausesOk(es)
    ensures Parse(Serialize(es)) == es
  {
    RereadClauses(Serialize(es), 0, es);
  }

  // ---------------------------------------------------------------------------
  // Parsed clauses are readable

  lemma {:induction false} ReadAttributesOk(s: string, pos: nat)
    requires pos <= |s|
    ensures AttributesOk(ReadAttributes(s, pos).0, ReadAttributes(s, pos).1 == |s|)
    decreases |s| - pos
  {
    var a := ReadUntil(s, pos, STOP_CHARS);
    ReadNormal(s, pos, -1);
    var (attributes, next) := ReadAttributes(s, pos);
    if a.last == SEMICOLON as int {
      ReadAttributesOk(s, a.pos);
      forall i | 0 <= i < |attributes|
        ensures NormalText(attributes[i], next == |s| && i == |attributes| - 1)
      {
        if i > 0 {
          assert attributes[i] == ReadAttributes(s, a.pos).0[i - 1];
        }
      }
    } else if Stopped(a) {
      NormalTextAnywhere(a.text, next == |s|);
    }
  }

  /** The attribute loop ends just after a ',' or at the end of the input. */
  lemma {:induction false} ReadAttributesEnds(s: string, pos: nat)
    requires pos <= |s|
    ensures var r := ReadAttributes(s, pos); r.1 < |s| ==> s[r.1 - 1] == COMMA
    decreases |s| - pos
  {
    var a := ReadUntil(s, pos, STOP_CHARS);
    ReadEnds(s, pos);
    if a.last == SEMICOLON as int {
      ReadAttributesEnds(s, a.pos);
    }
  }

  /** A top-level read ends just after the stop char it reports, or at the end of the input. */
  lemma ReadEnds(s: string, pos: nat)
    requires pos <= |s|
    ensures var r := ReadUntil(s, pos, STOP_CHARS);
      && (Stopped(r) ==> 0 < r.pos && s[r.pos - 1] as int == r.last)
      && (!Stopped(r) ==> r.pos == |s|)
  {
    ReadNormal(s, pos, -1);
  }

  /** The private parse reads one whole clause: it leaves the cursor just after the ',' that
      ends the clause, or at the end of the input. */
  lemma ParseEntryEnds(s: string, pos: nat)
    requires pos <= |s|
    ensures var r := ParseEntryAt(s, pos); r.1 < |s| ==> s[r.1 - 1] == COMMA
  {
    var id := ReadUntil(s, pos, STOP_CHARS);
    ReadEnds(s, pos);
    if id.last == SEMICOLON as int {
      ReadAttributesEnds(s, id.pos);
    }
  }

  lemma ParseEntryAtOk(s: string, pos: nat)
    requires pos <= |s|
    ensures ParseEntryAt(s, pos).0.Some? ==> ClauseOk(ParseEntryAt(s, pos).0.value, ParseEntryAt(s, pos).1 == |s|)
  {
    var id := ReadUntil(s, pos, STOP_CHARS);
    ReadNormal(s, pos, -1);
    assert ReadNormalPost(s, pos, id);
    if id.last != -1 {
      NormalTrim(id.text, !Stopped(id));
      if id.last == SEMICOLON as int {
        ParseEntryWithAttributesOk(s, pos, id);
      } else if Stopped(id) {
        NormalTextAnywhere(Trim(id.text), id.pos == |s|);
      }
    }
  }

  lemma ParseEntryWithAttributesOk(s: string, pos: nat, id: Read)
    requires pos <= |s| && id == ReadUntil(s, pos, STOP_CHARS) && id.last == SEMICOLON as int
    requires NormalText(Trim(id.text), false)
    ensures ParseEntryAt(s, pos).0.Some? ==> ClauseOk(ParseEntryAt(s, pos).0.value, ParseEntryAt(s, pos).1 == |s|)
  {
    ReadAttributesOk(s, id.pos);
    var ra := ReadAttributes(s, id.pos);
    if |Trim(id.text)| > 0 {
      assert ParseEntryAt(s, pos) == (Some(Entry(Trim(id.text), ra.0)), ra.1);
    }
  }

  /** Every clause list parse produces is readable. */
  lemma {:induction false} ParseFromOk(s: string, pos: nat)
    requires pos <= |s|
    ensures ClausesOk(ParseFrom(s, pos))
    decreases |s| - pos
  {
    if pos < |s| {
      var step := ParseEntryAt(s, pos);
      ParseFromOk(s, step.1);
      var tail := ParseFrom(s, step.1);
      if step.0.Some? {
        ParseEntryAtOk(s, pos);
        assert ParseFrom(s, pos) == [step.0.value] + tail;
        if step.1 < |s| {
          ClauseOkAnywhere(step.0.value, tail == []);
        }
        ClausesCons(step.0.value, tail);
      } else {
        assert ParseFrom(s, pos) == tail;
      }
    }
  }

  lemma ClausesCons(e: Entry, tail: seq<Entry>)
    requires ClauseOk(e, tail == []) && ClausesOk(tail)
    ensures ClausesOk([e] + tail)
  {
    var r := [e] + tail;
    forall i | 0 <= i < |r|
      ensures ClauseOk(r[i], i == |r| - 1)
    {
      if i > 0 {
        assert r[i] == tail[i - 1];
      }
    }
  }

  /** Stability: parsing the ','-join of the toStrings of parse(s) gives parse(s) again, so
      re-serialising a header leaves its clauses unchanged. */
  lemma ParseStable(s: string)
    ensures Parse(Serialize(Parse(s))) == Parse(s)
  {
    ParseFromOk(s, 0);
    ParseSerialize(Parse(s));
  }
}

=== FILE: version_texts.dfy ===
/** How the parsing constructor of BundleVersion treats blank text, bare separators, a
    leading separator, trailing separators and a qualifier after the third segment. */
module VersionTexts {
  import opened Wrappers
  import opened JavaLang
  import opened Versions

  /** Texts with the same components parse alike. */
  lemma SameComponents(a: string, b: string)
    requires Components(a) == Components(b)
    ensures Parse(Some(a)) == Parse(Some(b))
  {
  }

  /** Blank text, the empty string included, trims to one empty piece, which
      Long.parseLong rejects. */
  lemma ParseBlank(s: string)
    requires Blank(s)
    ensures Parse(Some(s)) == Failure(NumberFormat(""))
  {
    TrimBlank(s);
    assert Split(Trim(s), SEPARATOR) == [[]];
    assert Components(s) == [""];
  }

  /** Text made of separators only splits into no pieces at all, so it parses as a version
      without segments. */
  lemma ParseSeparators(s: string)
    requires s != [] && forall i :: 0 <= i < |s| ==> s[i] == SEPARATOR
    ensures Parse(Some(s)) == Success(BundleVersion([]))
  {
    assert Trim(s) == s by {
      TrimTrimmed(s);
    }
    var pieces := SplitAll(s, SEPARATOR);
    assert Split(s, SEPARATOR) == DropTrailingEmpty(pieces) by {
      assert s[0] == SEPARATOR;
    }
    assert DropTrailingEmpty(pieces) == [] by {
      SplitAllSeparators(s, SEPARATOR);
    }
    assert Components(s) == [];
  }

  /** A leading separator makes the first piece empty, which Long.parseLong rejects. */
  lemma ParseLeadingSeparator(v: BundleVersion)
    requires v.segments != []
    ensures Parse(Some([SEPARATOR] + Print(v))) == Failure(NumberFormat(""))
  {
    var pieces := [[]] + Texts(v.segments);
    LeadingComponents(v);
    var k := Min(|pieces|, MAX_SEGMENTS);
    assert ParseSegments(pieces[..k]) == Failure(NumberFormat("")) by {
      assert pieces[..k][0] == [];
    }
  }

  lemma LeadingComponents(v: BundleVersion)
    requires v.segments != []
    ensures var pieces := [[]] + Texts(v.segments);
      Components([SEPARATOR] + Print(v)) == pieces[..Min(|pieces|, MAX_SEGMENTS)]
  {
    var pieces := [[]] + Texts(v.segments);
    LeadingJoin(v);
    LeadingFree(v);
    ComponentsJoin(pieces);
  }

  lemma LeadingJoin(v: BundleVersion)
    requires v.segments != []
    ensures var pieces := [[]] + Texts(v.segments);
      pieces[|pieces| - 1] != [] && Join(pieces, SEPARATOR) == [SEPARATOR] + Print(v)
      && Trimmed(Join(pieces, SEPARATOR))
  {
    PrintTrimmed(v.segments);
    JoinLeadingEmpty(Texts(v.segments));
    TrimmedAfterSeparator(Print(v));
  }

  lemma JoinLeadingEmpty(parts: seq<string>)
    requires parts != []
    ensures Join([[]] + parts, SEPARATOR) == [SEPARATOR] + Join(parts, SEPARATOR)
  {
    assert ([[]] + parts)[1..] == parts;
  }

  lemma TrimmedAfterSeparator(t: string)
    requires t != [] && Trimmed(t)
    ensures Trimmed([SEPARATOR] + t)
  {
  }

  lemma LeadingFree(v: BundleVersion)
    ensures var pieces := [[]] + Texts(v.segments);
      forall i :: 0 <= i < |pieces| ==> SEPARATOR !in pieces[i]
  {
    var pieces := [[]] + Texts(v.segments);
    forall i | 0 <= i < |pieces| ensures SEPARATOR !in pieces[i] {
      if i > 0 {
        assert pieces[i] == Texts(v.segments)[i - 1];
      }
    }
  }

  /** An empty component among the first three makes Long.parseLong throw: "1..2" and
      "1.2..3" are rejected. */
  lemma ParseEmptyComponent(v: BundleVersion, w: BundleVersion)
    requires 1 <= |v.segments| < MAX_SEGMENTS && w.segments != []
    ensures Parse(Some(Print(v) + [SEPARATOR, SEPARATOR] + Print(w))) == Failure(NumberFormat(""))
  {
    var text := Print(v) + [SEPARATOR, SEPARATOR] + Print(w);
    var k := |v.segments|;
    var parts := EmptyComponentParts(v, w);
    forall j | 0 <= j < k ensures ParseLong(parts[j]).Some? {
      assert parts[j] == parts[..k][j] == LongToString(v.segments[j]);
      ParseLongToString(v.segments[j]);
    }
    ParseSegmentsStops(parts, k);
    ParseFailure(text);
  }

  /** A version text whose segment texts do not all parse fails as they do. */
  lemma ParseFailure(text: string)
    requires ParseSegments(Components(text)).Failure?
    ensures Parse(Some(text)) == Failure(ParseSegments(Components(text)).error)
  {
  }

  /** The components of "v..w": the texts of v, then an empty one. */
  lemma EmptyComponentParts(v: BundleVersion, w: BundleVersion) returns (parts: seq<string>)
    requires 1 <= |v.segments| < MAX_SEGMENTS && w.segments != []
    ensures parts == Components(Print(v) + [SEPARATOR, SEPARATOR] + Print(w))
    ensures |v.segments| < |parts| && parts[|v.segments|] == []
    ensures parts[..|v.segments|] == Texts(v.segments)
  {
    var pieces := Texts(v.segments) + [[]] + Texts(w.segments);
    EmptyComponentJoin(v, w);
    ComponentsJoin(pieces);
    parts := pieces[..Min(|pieces|, MAX_SEGMENTS)];
    EmptyPiecePrefix(Texts(v.segments), Texts(w.segments), Min(|pieces|, MAX_SEGMENTS));
  }

  lemma EmptyPiecePrefix(a: seq<string>, b: seq<string>, m: nat)
    requires |a| < m <= |a| + 1 + |b|
    ensures var p := (a + [[]] + b)[..m]; p[..|a|] == a && p[|a|] == []
  {
    var p := (a + [[]] + b)[..m];
    assert p[..|a|] == a;
  }

  lemma EmptyComponentJoin(v: BundleVersion, w: BundleVersion)
    requires v.segments != [] && w.segments != []
    ensures var pieces := Texts(v.segments) + [[]] + Texts(w.segments);
      && pieces[|pieces| - 1] != []
      && (forall i :: 0 <= i < |pieces| ==> SEPARATOR !in pieces[i])
      && Join(pieces, SEPARATOR) == Print(v) + [SEPARATOR, SEPARATOR] + Print(w)
      && Trimmed(Join(pieces, SEPARATOR))
  {
    EmptyComponentFree(Texts(v.segments), Texts(w.segments));
    TextsPieces(w.segments);
    EmptyComponentText(v, w);
    PrintTrimmed(v.segments);
    PrintTrimmed(w.segments);
    TrimmedAround(Print(v), [SEPARATOR, SEPARATOR], Print(w));
  }

  lemma EmptyComponentFree(a: seq<string>, b: seq<string>)
    requires forall i :: 0 <= i < |a| ==> SEPARATOR !in a[i]
    requires forall i :: 0 <= i < |b| ==> SEPARATOR !in b[i]
    ensures forall i :: 0 <= i < |a + [[]] + b| ==> SEPARATOR !in (a + [[]] + b)[i]
  {
    var pieces := a + [[]] + b;
    forall i | 0 <= i < |pieces| ensures SEPARATOR !in pieces[i] {
      if i < |a| {
        assert pieces[i] == a[i];
      } else if i > |a| {
        assert pieces[i] == b[i - |a| - 1];
      }
    }
  }

  lemma EmptyComponentText(v: BundleVersion, w: BundleVersion)
    requires v.segments != [] && w.segments != []
    ensures Join(Texts(v.segments) + [[]] + Texts(w.segments), SEPARATOR) == Print(v) + [SEPARATOR, SEPARATOR] + Print(w)
  {
    var a := Texts(v.segments);
    var b := Texts(w.segments);
    JoinConcat(a + [[]], b, SEPARATOR);
    JoinSnoc(a, [], SEPARATOR);
  }

  /** Leading zeros are normalised away: "01" parses as 1. */
  lemma ParseLeadingZero(n: Long)
    requires n >= 0
    ensures Parse(Some(['0'] + LongToString(n))) == Success(BundleVersion([n]))
  {
    var d := LongToString(n);
    var text := ['0'] + d;
    assert d == NatToString(n);
    PaddedComponents(d);
    ParseLongLeadingZero(d);
    ParseLongToString(n);
    assert ParseSegments([text]) == Success([n]) by {
      assert [text][1..] == [] && [n] + [] == [n];
    }
  }

  lemma PaddedComponents(d: string)
    requires d != [] && AllDigits(d)
    ensures Components(['0'] + d) == [['0'] + d]
  {
    var text := ['0'] + d;
    PaddedTrimmed(d);
    assert Join([text], SEPARATOR) == text;
    ComponentsJoin([text]);
    assert [text][..Min(1, MAX_SEGMENTS)] == [text];
  }

  lemma PaddedTrimmed(d: string)
    requires d != [] && AllDigits(d)
    ensures Trimmed(['0'] + d) && SEPARATOR !in ['0'] + d
  {
    var text := ['0'] + d;
    assert text[|text| - 1] == d[|d| - 1];
    forall i | 0 <= i < |text| ensures text[i] != SEPARATOR {
      if i > 0 {
        assert text[i] == d[i - 1];
      }
    }
  }

  /** Separators after a printed version add only empty pieces, which are dropped: "1.2."
      and "1.2..." parse as "1.2" does. */
  lemma ParseTrailingSeparators(v: BundleVersion, dots: string)
    requires v.segments != []
    requires dots != [] && forall i :: 0 <= i < |dots| ==> dots[i] == SEPARATOR
    ensures Parse(Some(Print(v) + dots)) == Parse(Some(Print(v)))
  {
    TrailingSplit(v, dots);
    PrintComponents(v);
    SameComponents(Print(v) + dots, Print(v));
  }

  lemma TrailingSplit(v: BundleVersion, dots: string)
    requires v.segments != []
    requires dots != [] && forall i :: 0 <= i < |dots| ==> dots[i] == SEPARATOR
    ensures Components(Print(v) + dots) == Texts(v.segments[..Min(|v.segments|, MAX_SEGMENTS)])
  {
    var text := Print(v) + dots;
    TrailingTrim(v, dots);
    TextsPieces(v.segments);
    SplitTrailingSeparators(Texts(v.segments), dots, SEPARATOR);
    assert Split(Trim(text), SEPARATOR) == Texts(v.segments);
    var k := Min(|v.segments|, MAX_SEGMENTS);
    assert Texts(v.segments)[..k] == Texts(v.segments[..k]);
  }

  lemma TrailingTrim(v: BundleVersion, dots: string)
    requires v.segments != []
    requires dots != [] && forall i :: 0 <= i < |dots| ==> dots[i] == SEPARATOR
    ensures Trim(Print(v) + dots) == Print(v) + dots
  {
    PrintTrimmed(v.segments);
    TrimTrimmed(Print(v) + dots);
  }

  /** Whatever follows the third segment and a separator is ignored: "1.2.3.qualifier",
      "1.2.3." and "1.2.3.q " all parse as 1.2.3. */
  lemma ParseQualified(v: BundleVersion, qualifier: string)
    requires |v.segments| >= MAX_SEGMENTS
    ensures Parse(Some(Print(v) + [SEPARATOR] + qualifier)) == Success(BundleVersion(v.segments[..MAX_SEGMENTS]))
  {
    QualifiedComponents(v, qualifier);
    ParseSegmentsTexts(v.segments[..MAX_SEGMENTS]);
  }

  lemma QualifiedComponents(v: BundleVersion, qualifier: string)
    requires |v.segments| >= MAX_SEGMENTS
    ensures Components(Print(v) + [SEPARATOR] + qualifier) == Texts(v.segments[..MAX_SEGMENTS])
  {
    var text := Print(v) + [SEPARATOR] + qualifier;
    QualifiedTrim(v, qualifier);
    QualifiedSplit(v, TrimEnd(qualifier));
    assert Split(Trim(text), SEPARATOR)[..MAX_SEGMENTS] == Texts(v.segments[..MAX_SEGMENTS]);
  }

  lemma QualifiedSplit(v: BundleVersion, qualifier: string)
    requires |v.segments| >= MAX_SEGMENTS
    ensures var r := Split(Print(v) + [SEPARATOR] + qualifier, SEPARATOR);
      |r| >= MAX_SEGMENTS && r[..MAX_SEGMENTS] == Texts(v.segments[..MAX_SEGMENTS])
  {
    var texts := Texts(v.segments);
    TextsPieces(v.segments);
    SplitSuffix(texts, qualifier, SEPARATOR);
    assert texts[..MAX_SEGMENTS] == Texts(v.segments[..MAX_SEGMENTS]);
  }

  /** String.trim removes only the qualifier's trailing blanks: the separator before it is kept. */
  lemma QualifiedTrim(v: BundleVersion, qualifier: string)
    requires v.segments != []
    ensures Trim(Print(v) + [SEPARATOR] + qualifier) == Print(v) + [SEPARATOR] + TrimEnd(qualifier)
  {
    var x := Print(v) + [SEPARATOR];
    PrintTrimmed(v.segments);
    assert x[0] == Print(v)[0];
    TrimAfter(x, qualifier);
  }
}

=== FILE: wrappers.dfy ===
/** Failure-compatible wrappers: `Option` stands for a Java reference that may be
    null, `Result` for a call that either returns or throws. */
module Wrappers {

  datatype Option<+T> = None | Some(value: T) {
    predicate IsFailure() {
      None?
    }

    function PropagateFailure<U>(): Option<U>
      requires None?
    {
      None
    }

    function Extract(): T
      requires Some?
    {
      value
    }
  }

  datatype Result<+R, +E> = Success(value: R) | Failure(error: E) {
    predicate IsFailure() {
      Failure?
    }

    function PropagateFailure<U>(): Result<U, E>
      requires Failure?
    {
      Failure(error)
    }

    function Extract(): R
      requires Success?
    {
      value
    }
  }
}
